=== FILE: README.md ===
# AIChef2 recipe recommendation — a verified Dafny model

AIChef2 answers a free-text food query with recipe recommendations. The back end runs in
four stages:

1. It searches a vector index of recipes.
2. It keeps the hits within a distance threshold, filling in missing metadata, and
   optionally screens out recipes that mention a disliked or allergenic ingredient.
3. It asks a chat model to pick, or to narrate, the best candidates.
4. It formats the candidates into recipe responses.

The browser front end keeps favourites and user profiles in `localStorage`.

This project models the deterministic machinery around those steps. The vector search
and the chat model are oracles, and their outputs are inputs here.

| file | module | models |
|---|---|---|
| `wrappers.dfy` | `Wrappers` | `Option` |
| `sequences.dfy` | `Sequences` | order-preserving filters, subsequences, first-occurrence deduplication (Python's seen-set loop, JavaScript's `Array.from(new Set(...))`), append-if-absent |
| `text.dfy` | `Text` | `str.strip` and `String.prototype.trim`, ASCII lower-casing, substring search, `split(sep, 1)`, `\d+` digit runs, `str(n)` / `int(d)` |
| `recipes.dfy` | `Recipes` | the records: retrieved candidate, raw step, formatted recipe |
| `llm.dfy` | `Llm` | the chat-model client as an oracle: no client, or a map from request data to a reply or an exception |
| `retriever.dfy` | `Retriever` | `retrieve_docs`: threshold filter, metadata defaults, avoid list, avoid-term screening |
| `generator.dfy` | `Generator` | `smart_select_and_comment` (listing, reply unwrapping, index/reason parser, fallbacks) and `generate_rag_answer` |
| `services.dfy` | `Services` | index clamp, `get_recipe_list_response` (deduplication, decoding, steps, images, comment rule), `consult_chef` |
| `storage.dfy` | `Storage` | the four `localStorage` keys, decoded |
| `detail.dfy` | `Detail` | the detail page's favourite flag and `toggleFavorite` |
| `favorites.dfy` | `Favorites` | `loadFavorites` |
| `user_context.dfy` | `UserContext` | name normalisation, initial user, `switchUser` |
| `user_switch.dfy` | `UserSwitch` | saved-profile initialiser, displayed profile list, `handleSwitch` |

The modelling choices:

- Imperative source code is modelled as methods proved against specification functions.
  This covers the filter loops, the `+=` string builders, the seen-names loop and the
  browser handlers that mutate state. Examples: `ThresholdFilter` against `Passing`,
  `FormatDeduplicated` against `FormatAll(Deduplicated(..))` and `LoadFavorites`
  against `LoadedRecipes`.
- Every property is then proved about those specification functions.
- The browser's state lives in classes: `Store`, `DetailPage`, `FavoritesPage`,
  `UserSession` and `UserSwitchPanel`.
- `json.loads` and `ast.literal_eval` are function parameters that return `None` when
  parsing fails.

Facts about the code that the model keeps as written:

- In `smart_select_and_comment` the printed-dictionary branch never parses: `ast` is not
  imported in that scope (core/generator.py:1-5, 119). The resulting `NameError` is
  swallowed and the text is kept. `Generator.SelectionText` models this, and
  `Generator.SelectionTextIsStrippedUnwrap` proves that the step never changes the text.
  `generate_rag_answer` imports `ast` locally (core/generator.py:210), so its branch
  does parse.
- The `|||` path of the rerank returns an index without a range check
  (core/generator.py:130-134). Only the clamp in `get_recipe_response` makes it valid
  (`Generator.SeparatorIndexUnbounded`, `Services.OutOfRangeReplyCorrected`).
- `generate_rag_answer` returns a fixed text in three cases: no client, no candidates
  and a failed call (core/generator.py:152-156, 220-222).

## Model

| member | source | states |
|---|---|---|
| Text.Trim | core/generator.py:116 | the stripped text is a slice of the input cut only at runs of whitespace, and neither starts nor ends with whitespace |
| Text.TrimIdempotent | core/generator.py:116-125 | stripping a stripped text changes nothing |
| Text.TrimEmptyIffAllSpace | frontend/src/components/UserSwitch.tsx:28-29 | a text trims to the empty string exactly when it is all whitespace |
| Text.IndexOf | core/retriever.py:93 | the first occurrence of a word: it occurs there and nowhere earlier; `None` exactly when it occurs nowhere |
| Text.SplitOnce | core/generator.py:131 | `None` exactly when the separator is absent; otherwise left + separator + right is the text and the split is at the first occurrence |
| Text.FirstDigitRun | core/generator.py:132 | `None` exactly when no character is a digit; otherwise a non-empty run of digits that is the slice of the text at some position with no digit before it and no digit right after it (the leftmost maximal run) |
| Text.LeadingDigitRun | core/generator.py:137 | `None` exactly when the text does not start with a digit; otherwise a non-empty digit run that starts the text and is followed by no further digit (the greedy match) |
| Text.LowerSpec | core/retriever.py:83 | no upper-case ASCII letter remains; each upper-case ASCII letter becomes its lower-case letter and every other character is kept |
| Text.DecimalRoundTrip | core/generator.py:64 | reading back the decimal text of a number written into the listing gives the number |
| Recipes.ShowTagList | core/retriever.py:89 | `str()` of a tag list prints between `[` and `]`, as `[]` when empty and as `['t']` for one tag |
| Recipes.ShowTagListAppend | core/retriever.py:89 | the print of two non-empty tag lists back to back is the first print without `]`, then `, `, then the second print without `[`; with `ShowTagList` this gives every tag quoted, in order, separated by `, ` |
| Sequences.Filter | core/retriever.py:87-100 | the survivors are exactly the elements satisfying the predicate, and there are no more of them than inputs |
| Sequences.FilterIsSubsequence | core/retriever.py:59-74 | a filter keeps the survivors in their original relative order |
| Sequences.DistinctByKeepsFirsts | app/services.py:60-65 | every survivor of the seen-set loop has an unseen key and is the first element carrying that key |
| Sequences.DistinctByInOrder | app/services.py:60-65 | survivors appear in the order of their first occurrences |
| Sequences.DistinctByKeepsEveryKey | app/services.py:60-65 | every unseen key of the input is carried by some survivor |
| Sequences.DistinctByAppend | frontend/src/components/UserSwitch.tsx:18 | deduplicating `a + b` is deduplicating `a`, then `b` against the keys of `a` |
| Sequences.DistinctExactlyOnce | frontend/src/components/UserSwitch.tsx:62 | `Array.from(new Set(s))` holds every element of `s` exactly once and nothing else |
| Sequences.AppendIfAbsent | frontend/src/Detail.tsx:37-41 | the id is present afterwards; an existing id leaves the list unchanged; otherwise the id is appended after the unchanged list |
| Sequences.AppendIfAbsentNoDuplicates | frontend/src/components/UserSwitch.tsx:31-35 | appending only when absent never introduces a duplicate |
| Retriever.ToRecord | core/retriever.py:63-74 | content and score are copied; a missing id, name, tags, image or instructions becomes `''`, `'未知'`, `''`, `''` or `[]`; a present id, name, tags, image or instructions is copied unchanged |
| Retriever.Passing | core/retriever.py:59-74 | every kept record has score at most the threshold, and every hit within the threshold is kept |
| Retriever.PassingIsOrderedSubsequence | core/retriever.py:56-74 | the threshold stage is an order-preserving subsequence of the hits, no longer than them |
| Retriever.ThresholdFilter | core/retriever.py:56-74 | the `filtered_results` loop computes exactly `Passing` |
| Retriever.AvoidTerms | core/retriever.py:83 | the avoid list has no empty term and is no longer than its source list |
| Retriever.AvoidTermsAppend | core/retriever.py:83 | the avoid list of `dislikes + allergies` is that of the dislikes followed by that of the allergies |
| Retriever.AvoidTermsMembers | core/retriever.py:83 | a term is in the avoid list exactly when it is the lower-cased form of a non-empty entry |
| Retriever.AvoidListSpec | core/retriever.py:79-83 | the avoid list is the lower-cased non-empty dislikes, then allergies |
| Retriever.CheckSafe | core/retriever.py:89-96 | the `is_safe` loop with `break` yields true exactly when no avoid term occurs in the lower-cased name + `str(tags)` + content |
| Retriever.ScreenRecords | core/retriever.py:87-100 | the `final_results` loop keeps exactly the records mentioning no avoid term, in order |
| Retriever.Retrieved | core/retriever.py:43-102 | no store gives `[]`; every result is within the threshold |
| Retriever.RetrieveDocs | core/retriever.py:43-102 | `retrieve_docs` computes `Retrieved`; no store gives `[]` |
| Retriever.RetrievedWithoutAvoidTerms | core/retriever.py:77-85 | without preferences or with an empty avoid list, the result is exactly the threshold stage |
| Retriever.RetrievedAvoidsTerms | core/retriever.py:87-99 | no result's screened text contains any avoid term |
| Retriever.RetrievedKeepsSafeHitsInOrder | core/retriever.py:87-100 | every hit within the threshold that mentions no avoid term survives, and the results keep the hit order |
| Retriever.KungPaoChickenIncluded | core/retriever.py:62-74 | a hit at distance 0.2 passes the default threshold 1.0 |
| Retriever.GarnishMentionsCilantro | core/retriever.py:89-94 | a record whose content reads "Garnish: Cilantro" mentions the avoid term "cilantro" whatever its name and tags, because the text is lower-cased first |
| Retriever.CilantroExcluded | core/retriever.py:77-100 | a hit within the threshold whose content reads "Garnish: Cilantro" is dropped when "cilantro" is disliked, and kept as its record without preferences |
| Generator.Snippet | core/generator.py:62 | at most 150 characters, the prefix of the content with every newline replaced by a space |
| Generator.Listing | core/generator.py:60-67 | the listing is empty exactly when there are no candidates |
| Generator.ListingNumbersCandidates | core/generator.py:60-67 | the block of candidate `i`, numbered `i`, directly follows the blocks of candidates `0..i-1` at the start of the listing |
| Generator.BuildListing | core/generator.py:60-67 | the `candidates_str` loop builds the numbered listing of all candidates |
| Generator.Unwrap | core/generator.py:107-116 | text content is itself; a dictionary gives its `'text'` entry, else its printed form; no parts give `''`; otherwise the text starts with the first part and ends with the last |
| Text.JoinEnds | core/generator.py:109 | a join of parts starts with the first part and ends with the last |
| Text.JoinAppend | core/generator.py:109 | joining two non-empty runs of parts is the first join, the separator, then the second join |
| Text.JoinSingle | core/generator.py:109 | the join of one part is that part; the join of no parts is empty |
| Generator.UnwrapSinglePart | core/generator.py:109 | a list reply of one part is that part's `str()` form |
| Generator.UnwrapPartsAppend | core/generator.py:109 | a list reply of two non-empty runs of parts is the first run's text, a space, then the second's: every part's text in order, separated by single spaces |
| Generator.SelectionText | core/generator.py:107-125 | the rerank text has no surrounding whitespace |
| Generator.SelectionTextIsStrippedUnwrap | core/generator.py:107-125 | the rerank reads a reply as its stripped unwrapped text, even when it looks like a printed dictionary |
| Generator.SeparatorRule | core/generator.py:130-134 | no rule without a triple bar; with one, the rule fires exactly when a digit precedes the first triple bar, and then gives the value of the first digit run before it and the stripped text after it; the index is never negative |
| Generator.ParseSelection | core/generator.py:130-146 | the triple-bar rule wins when it fires; otherwise a leading run `N` gives `(N, "为您推荐【" + name + "】")` for a valid `N` and the `IndexError` fallback `(0, "为您推荐以下菜谱：")` otherwise; a text not starting with a digit gives `(0, "试试这道【" + first name + "】，应该不错！")`; the index is never negative, and off the triple-bar path it is valid |
| Generator.Select | core/generator.py:53-146 | no client gives `(0, "API Key 未配置，默认推荐：")`; no candidates gives `(0, "没有候选菜谱。")`; a failed call gives `(0, "为您推荐以下菜谱：")`; an answered call gives `ParseSelection` of the reply's stripped unwrapped text; the index is never negative |
| Generator.SelectInRangeWithoutSeparator | core/generator.py:126-146 | when the model answers and the `|||` rule does not fire on its text, the selected index names a candidate |
| Generator.SelectAnsweredOutOfRange | core/generator.py:126-146 | on an answered call, an index past the candidates is exactly the `|||` rule's selection on the reply text |
| Generator.SmartSelectAndComment | core/generator.py:48-146 | computes `Select`; the index is never negative |
| Generator.WellFormedReplyParsed | core/generator.py:130-134 | a reply made of the decimal index `i`, a spaced triple bar and a reason selects `i` with the stripped reason |
| Generator.SeparatorIndexUnbounded | core/generator.py:132-134 | with one candidate, the reply `7`, triple bar, `好吃` selects index 7: the triple-bar path does not bound the index |
| Generator.FirstFive | core/generator.py:160 | at most five candidates, a prefix of the list, all of them when there are at most five |
| Generator.Summary | core/generator.py:159-161 | the summary is empty exactly when there are no candidates |
| Generator.SummaryInOrder | core/generator.py:159-161 | the line of candidate `i` directly follows the lines of candidates `0..i-1` at the start of the summary |
| Generator.BuildSummary | core/generator.py:159-161 | the `candidates_summary` loop summarises the first five candidates |
| Generator.UnwrapShared | core/generator.py:198-205 | unless the text looks like a printed dictionary, both model calls read a reply the same way |
| Generator.NarrativeText | core/generator.py:199-218 | the stripped unwrapped text, unless it looks like a printed dictionary and the literal evaluation finds a `'text'` entry, which is then returned; a text reply not starting with `{` is returned stripped |
| Generator.Narrative | core/generator.py:148-222 | the no-client, no-candidate and failed-call fallbacks; an answered call gives `NarrativeText` of the reply content (the stripped unwrapped text, or the `'text'` entry `literal_eval` finds in it) |
| Generator.GenerateRagAnswer | core/generator.py:148-222 | `generate_rag_answer` computes `Narrative` |
| Generator.NarrativeFallbacksDistinct | core/generator.py:152-156 | the three fallback texts are pairwise distinct |
| Generator.NarrativeSeesFirstFive | core/generator.py:160 | candidates beyond the fifth never change the narrative |
| Services.ClampIndex | app/services.py:29-30 | an in-range index is kept, any other becomes 0, and the result is valid for a non-empty list |
| Services.ChooseBestMatch | app/services.py:26-33 | the best match is the candidate at the clamped AI index, with the AI reason |
| Services.CorrectedChoiceValid | app/services.py:29-33 | for non-empty candidates the corrected index is always valid, and an in-range AI index is unchanged |
| Services.OutOfRangeReplyCorrected | app/services.py:26-33 | with two candidates, the reply `2`, triple bar, `try this` selects 2 with reason `try this`, and the clamp corrects the index to 0 |
| Services.DecodeSteps | app/services.py:68-71 | a list passes through; a string is JSON-decoded, with `[]` on failure |
| Services.DecodeTags | app/services.py:74-77 | a list passes through; a string is JSON-decoded, with `[]` on failure |
| Services.ResolveImage | app/services.py:83-86 | `image_url` when non-empty, else `imgLink`; an empty or `"null"` result is no image |
| Services.FormattedSteps | app/services.py:80-94 | one step per raw step, numbered 1, 2, ..., n, with a missing description becoming `''` and each step's image resolved from its own raw step |
| Services.FormatSteps | app/services.py:80-94 | the `formatted_steps` loop computes `FormattedSteps` |
| Services.Truncate | app/services.py:99 | `int()` truncates toward zero |
| Services.Comment | app/services.py:99-103 | the comment starts with the match sentence and ends with the spice advisory, the soup advisory or nothing |
| Services.CommentRule | app/services.py:99-103 | the comment starts with the match sentence, followed by the spice advisory exactly when `str(tags)` holds 辣, the soup advisory exactly when it holds 汤 and not 辣, and nothing otherwise |
| Services.FormatRecipe | app/services.py:105-114 | id, name and cover image are the candidate's |
| Services.FormatRecipeFields | app/services.py:67-114 | tags and steps are the candidate's decoded fields, the steps formatted; the message is the rule-based comment on the candidate's score and decoded tags |
| Services.Deduplicated | app/services.py:57-65 | no more survivors than candidates, and the first candidate always survives first |
| Services.FormatDeduplicated | app/services.py:57-114 | the seen-names loop formats exactly the first candidate of each name, in order |
| Services.DeduplicatedFirstPerName | app/services.py:57-65 | no two survivors share a name; each is the first candidate with its name; every name survives; survivors keep candidate order |
| Services.ListResponse | app/services.py:45-123 | `None` exactly when retrieval finds nothing; otherwise a non-empty list no longer than the candidates, and the AI message is the narrative written over all retrieved candidates |
| Services.GetRecipeListResponse | app/services.py:45-123 | `get_recipe_list_response` computes `ListResponse` |
| Services.FormattedDeduplicated | app/services.py:57-114 | the formatted survivors carry pairwise distinct names, every candidate name, and keep the candidates' order |
| Services.ListResponseDeduplicated | app/services.py:57-114 | when there is a response, its entries are the formatted deduplicated candidates: names unique, every candidate name present, in candidate order |
| Services.TomatoSoupKeptOnce | app/services.py:60-65 | two candidates named "Tomato Soup" leave only the first |
| Services.RecentTurns | app/services.py:140 | the last min(4, n) turns, in order, as a suffix of the history |
| Services.HistoryText | app/services.py:140 | empty for an empty history; otherwise it starts with the `role: content` line of the oldest of the last four turns and ends with that of the newest |
| Services.HistoryTextSingle | app/services.py:140 | a one-turn history is that turn's `role: content` line |
| Services.HistoryTextAppend | app/services.py:140 | within the four-turn window, the text of two runs of turns is the first's text, a newline, then the second's: every turn's line in order, one per line |
| Services.HistoryTextWindow | app/services.py:140 | the text of a history is the text of its last four turns |
| Services.ConsultReply | app/services.py:125-167 | no client gives the "API Key Missing" apology; a failed call, or reply content that is not text, gives the "厨房太忙" apology; a text reply is returned stripped |
| Services.ConsultIgnoresOlderTurns | app/services.py:140 | turns older than the last four never change the reply |
| Services.ConsultApologiesDistinct | app/services.py:155-167 | the two apologies differ |
| Detail.WithoutId | frontend/src/Detail.tsx:34 | every occurrence of the id is removed and every other id is kept |
| Detail.WithoutIdKeepsOthers | frontend/src/Detail.tsx:33-34 | removal keeps the other ids in relative order and with their multiplicities |
| Detail.ToggleKeepsIdsDistinct | frontend/src/Detail.tsx:33-41 | neither branch of the toggle introduces a duplicate id |
| Detail.ToggleKeepsSync | frontend/src/Detail.tsx:33-46 | both branches keep the id list and the saved-recipe keys in sync |
| Detail.AddThenRemoveRestores | frontend/src/Detail.tsx:34-42 | adding an id absent from list and map, then removing it, restores both |
| Detail.DetailPage.Mount | frontend/src/Detail.tsx:16-23 | for a recipe with a non-empty id the flag becomes membership of the id in the stored list; otherwise it is unchanged |
| Detail.DetailPage.ToggleFavorite | frontend/src/Detail.tsx:25-48 | removal filters the id out of the list and deletes its map entry; adding appends the id if absent and stores the recipe; the flag flips; flag agreement and list/map sync are preserved |
| Favorites.Lookups | frontend/src/Favorites.tsx:42 | one lookup per id, present exactly when the id has a saved entry |
| Favorites.LoadedIsFilterThenMap | frontend/src/Favorites.tsx:42 | mapping ids through the map then dropping `undefined` equals keeping the saved ids then looking them up |
| Favorites.LoadedRecipesSpec | frontend/src/Favorites.tsx:15-42 | no more recipes than ids; none for an empty list; each is the saved entry of a listed id; every saved listed id contributes; ids keep their order |
| Favorites.FavoritesPage.LoadFavorites | frontend/src/Favorites.tsx:13-50 | the page shows `LoadedRecipes` of the stored ids and map, and loading ends on both paths |
| UserContext.Normalize | frontend/src/context/UserContext.tsx:17 | the trimmed name when non-empty, else `default`; never empty |
| UserContext.NormalizeIdempotent | frontend/src/context/UserContext.tsx:17 | normalising twice is normalising once, and the result has no surrounding whitespace |
| UserContext.InitialUsername | frontend/src/context/UserContext.tsx:12-14 | the stored name when non-empty, else `default` |
| UserContext.UserSession.SwitchUser | frontend/src/context/UserContext.tsx:16-22 | state and stored name become the same normalised, non-empty name |
| UserSwitch.InitialSavedUsers | frontend/src/components/UserSwitch.tsx:11-24 | with nothing usable stored, exactly the three defaults |
| UserSwitch.InitialSavedUsersSpec | frontend/src/components/UserSwitch.tsx:15-18 | `Dad`, `Mom`, `Kid` first, then the stored non-default names once each in first-occurrence order; no duplicates; every stored name present |
| UserSwitch.DisplayedProfilesSpec | frontend/src/components/UserSwitch.tsx:62 | `default` first; every saved name exactly once; nothing else |
| UserSwitch.UserSwitchPanel.HandleSwitch | frontend/src/components/UserSwitch.tsx:26-41 | a whitespace-only name changes nothing; otherwise the trimmed name is appended (and stored) only if absent, becomes the user, and the panel closes with its input cleared; the list stays duplicate-free |

## Left out

- The chat-model clients, `safe_invoke` and the prompt wording (core/generator.py:7-46, app/services.py:12-15, 130-153) are network calls into foreign libraries. A request carries only the data the prompts interpolate.
- The vector store (`VectorDBManager`, device selection, `similarity_search_with_score`) is a foreign library. Its ordered `(document, score)` hits are an input, and `top_k` only sizes that input.
- `json.loads` and `ast.literal_eval` are not re-implemented. They are oracle parameters that return `None` on failure.
- Services.Truncate: the score is a real number, so the floating-point rounding of `score * 100` is not modelled.
- Text.FirstDigitRun, Text.LeadingDigitRun, Text.DigitsValue: `\d` matches ASCII digits only here; Python's `re` also matches other Unicode decimal digits.
- Text.Lower: only ASCII letters are lower-cased; Python's `str.lower` also folds other cased letters.
- Recipes.ShowTags prints a list of tags without Python's escaping of quotes inside the tags.
- Services.ChooseBestMatch requires a non-empty candidate list because line 33 raises `IndexError` on an empty one. The rest of `get_recipe_response` (app/services.py:34-43) is not modelled: it references the undefined names `raw_tags` and `formatted_steps`, so it always raises, and no route calls it.
- Generator.Narrative: when `ast.literal_eval` yields a non-string `'text'` entry, that entry is returned through its printed form. The `TypeError` that `content[:50]` raises for some such values (turning the reply into the failure text) is not modelled.
- Metadata values, decoded steps and decoded tags are taken to have the expected shapes (strings, lists of step dictionaries, lists of strings). The exceptions that other shapes would raise are not modelled.
- Browser storage is held decoded. The `JSON.parse` exceptions on corrupt `aichef_favorites` or `aichef_saved_recipes` values are not modelled. For `aichef_saved_users`, a parsed value that the spread rejects counts as unusable; a stored JSON string, which the spread splits into characters, is not modelled.
- The HTTP layer (app/main.py), the ORM and database (app/sql_models.py, core/database.py) and the command-line and debug scripts are outside the core.
- JSX rendering, navigation, scrolling, `window.location.reload`, the axios interceptor, App.tsx and Home.tsx are presentation plumbing.
- Concurrency: the server code holds no locks and shares no mutable state across requests beyond the cached store handle, which is left out.

=== FILE: detail.dfy ===
/** The favourite toggle of the recipe detail page (frontend/src/Detail.tsx): an id
    list and an id-to-recipe map in storage, and the page's favourite flag. */
module Detail {
  import opened Wrappers
  import opened Sequences
  import opened Recipes
  import opened Storage

  /** `favIds.filter(fid => fid !== id)`: every occurrence of `id` removed. */
  function WithoutId(ids: seq<string>, id: string): (r: seq<string>)
    ensures id !in r
    ensures forall x :: x in r ==> x in ids
    ensures forall x :: x in ids && x != id ==> x in r
  {
    Filter(ids, (fid: string) => fid != id)
  }

  /** Removal keeps the other ids in their relative order and with their
      multiplicities. */
  lemma WithoutIdKeepsOthers(ids: seq<string>, id: string)
    ensures IsSubsequence(WithoutId(ids, id), ids)
    ensures forall x :: x != id ==> multiset(WithoutId(ids, id))[x] == multiset(ids)[x]
  {
    FilterIsSubsequence(ids, (fid: string) => fid != id);
    forall x | x != id
      ensures multiset(WithoutId(ids, id))[x] == multiset(ids)[x]
    {
      FilterCount(ids, (fid: string) => fid != id, x);
    }
  }

  /** Neither branch of the toggle introduces a duplicate id. */
  lemma ToggleKeepsIdsDistinct(ids: seq<string>, id: string)
    requires NoDuplicates(ids)
    ensures NoDuplicates(WithoutId(ids, id))
    ensures NoDuplicates(AppendIfAbsent(ids, id))
  {
    FilterNoDuplicates(ids, (fid: string) => fid != id);
    AppendIfAbsentNoDuplicates(ids, id);
  }

  /** The id list and the keys of the saved-recipe map hold the same ids. */
  ghost predicate InSync(ids: seq<string>, saved: map<string, Recipe>)
  {
    (forall x :: x in ids ==> x in saved) && (forall x :: x in saved ==> x in ids)
  }

  /** Both branches of the toggle keep the list and the map in sync. */
  lemma ToggleKeepsSync(ids: seq<string>, saved: map<string, Recipe>, id: string, recipe: Recipe)
    requires InSync(ids, saved)
    ensures InSync(WithoutId(ids, id), saved - {id})
    ensures InSync(AppendIfAbsent(ids, id), saved[id := recipe])
  {
  }

  /** Adding an id that is in neither the list nor the map, then removing it,
      restores both. */
  lemma AddThenRemoveRestores(ids: seq<string>, saved: map<string, Recipe>, id: string, recipe: Recipe)
    requires id !in ids && id !in saved
    ensures WithoutId(AppendIfAbsent(ids, id), id) == ids
    ensures saved[id := recipe] - {id} == saved
  {
    var p := (fid: string) => fid != id;
    FilterSnoc(ids, id, p);
    FilterKeepsAll(ids, p);
  }

  /** The detail page of one recipe. */
  class DetailPage {
    /** The recipe handed over by the list page, if any. */
    const recipe: Option<Recipe>
    const store: Store
    var isFavorite: bool

    /** The flag agrees with the stored list. */
    predicate FlagAgrees()
      reads this, store
    {
      recipe.Some? ==> (isFavorite <==> recipe.value.recipeId in store.favorites)
    }

    constructor (recipe: Option<Recipe>, store: Store)
      ensures this.recipe == recipe && this.store == store && !isFavorite
    {
      this.recipe := recipe;
      this.store := store;
      isFavorite := false;
    }

    /** The mount effect (frontend/src/Detail.tsx:16-23): with a recipe whose id is
        non-empty, the flag becomes membership of that id in the stored list. */
    method Mount()
      modifies this`isFavorite
      ensures recipe.Some? && recipe.value.recipeId != "" ==>
        isFavorite == (recipe.value.recipeId in store.favorites)
      ensures !(recipe.Some? && recipe.value.recipeId != "") ==> isFavorite == old(isFavorite)
    {
      if recipe.Some? && recipe.value.recipeId != "" {
        isFavorite := recipe.value.recipeId in store.favorites;
      }
    }

    /** `toggleFavorite` (frontend/src/Detail.tsx:25-48).  The button exists only
        when the page shows a recipe.  Removing drops the id from the list and the
        map; adding appends it if absent and stores the recipe; the flag flips; the
        other storage keys are untouched. */
    method ToggleFavorite()
      requires recipe.Some?
      modifies this`isFavorite, store`favorites, store`savedRecipes
      ensures
        var id := recipe.value.recipeId;
        && (old(isFavorite) ==>
              store.favorites == WithoutId(old(store.favorites), id)
              && store.savedRecipes == old(store.savedRecipes) - {id})
        && (!old(isFavorite) ==>
              store.favorites == AppendIfAbsent(old(store.favorites), id)
              && store.savedRecipes == old(store.savedRecipes)[id := recipe.value])
      ensures isFavorite == !old(isFavorite)
      ensures old(FlagAgrees()) ==> FlagAgrees()
      ensures old(InSync(store.favorites, store.savedRecipes)) ==> InSync(store.favorites, store.savedRecipes)
    {
      var id := recipe.value.recipeId;
      var favIds := store.favorites;
      var newFavIds: seq<string>;
      var savedRecipes := store.savedRecipes;
      if InSync(favIds, savedRecipes) {
        ToggleKeepsSync(favIds, savedRecipes, id, recipe.value);
      }
      if isFavorite {
        newFavIds := WithoutId(favIds, id);
        savedRecipes := savedRecipes - {id};
      } else {
        if id !in favIds {
          newFavIds := favIds + [id];
        } else {
          newFavIds := favIds;
        }
        savedRecipes := savedRecipes[id := recipe.value];
      }
      store.favorites := newFavIds;
      store.savedRecipes := savedRecipes;
      isFavorite := !isFavorite;
    }
  }
}

=== FILE: favorites.dfy ===
/** The favourites page (frontend/src/Favorites.tsx): the stored ids projected
    through the saved-recipe map. */
module Favorites {
  import opened Wrappers
  import opened Sequences
  import opened Recipes
  import opened Storage

  /** `favIds.map(id => savedMap[id])`: one lookup per id, `None` standing for
      `undefined`. */
  function Lookups(ids: seq<string>, saved: map<string, Recipe>): (r: seq<Option<Recipe>>)
    ensures |r| == |ids|
    ensures forall i :: 0 <= i < |ids| ==> (r[i].Some? <==> ids[i] in saved)
  {
    seq(|ids|, i requires 0 <= i < |ids| => if ids[i] in saved then Some(saved[ids[i]]) else None)
  }

  /** `.filter(Boolean)`: the present values, in order. */
  function Present<T>(s: seq<Option<T>>): (r: seq<T>)
    ensures |r| <= |s|
  {
    if |s| == 0 then []
    else Present(s[..|s| - 1]) + (if s[|s| - 1].Some? then [s[|s| - 1].value] else [])
  }

  /** The loaded recipes: map, then drop the missing entries. */
  function LoadedRecipes(ids: seq<string>, saved: map<string, Recipe>): seq<Recipe>
  {
    Present(Lookups(ids, saved))
  }

  /** The ids that have a saved entry, in list order. */
  function SavedIds(ids: seq<string>, saved: map<string, Recipe>): (r: seq<string>)
    ensures forall id :: id in r ==> id in saved
  {
    Filter(ids, (id: string) => id in saved)
  }

  /** The independent reading of the projection: keep the ids that have an entry,
      then look each one up. */
  function EntriesOf(ids: seq<string>, saved: map<string, Recipe>): (r: seq<Recipe>)
    requires forall id :: id in ids ==> id in saved
    ensures |r| == |ids|
  {
    seq(|ids|, i requires 0 <= i < |ids| => saved[ids[i]])
  }

  /** Mapping then filtering equals filtering then mapping. */
  lemma {:induction false} LoadedIsFilterThenMap(ids: seq<string>, saved: map<string, Recipe>)
    ensures LoadedRecipes(ids, saved) == EntriesOf(SavedIds(ids, saved), saved)
  {
    if |ids| > 0 {
      var init := ids[..|ids| - 1];
      var last := ids[|ids| - 1];
      LoadedIsFilterThenMap(init, saved);
      assert Lookups(ids, saved)[..|ids| - 1] == Lookups(init, saved);
      assert SavedIds(ids, saved) == SavedIds(init, saved) + (if last in saved then [last] else []);
    }
  }

  /** What the page shows: no more recipes than ids, nothing for an empty list,
      each recipe the saved entry of a listed id, and the recipes in the order of
      their ids. */
  lemma LoadedRecipesSpec(ids: seq<string>, saved: map<string, Recipe>)
    ensures |LoadedRecipes(ids, saved)| <= |ids|
    ensures ids == [] ==> LoadedRecipes(ids, saved) == []
    ensures forall r :: r in LoadedRecipes(ids, saved) ==> exists id :: id in ids && id in saved && saved[id] == r
    ensures forall id :: id in ids && id in saved ==> saved[id] in LoadedRecipes(ids, saved)
    ensures IsSubsequence(SavedIds(ids, saved), ids)
  {
    LoadedIsFilterThenMap(ids, saved);
    var kept := SavedIds(ids, saved);
    var out := EntriesOf(kept, saved);
    forall r | r in out
      ensures exists id :: id in ids && id in saved && saved[id] == r
    {
      var i :| 0 <= i < |out| && out[i] == r;
      assert kept[i] in kept;
    }
    forall id | id in ids && id in saved
      ensures saved[id] in out
    {
      assert id in kept;
      var i :| 0 <= i < |kept| && kept[i] == id;
      assert out[i] == saved[id];
    }
    FilterIsSubsequence(ids, (id: string) => id in saved);
  }

  /** The favourites page. */
  class FavoritesPage {
    const store: Store
    var recipes: seq<Recipe>
    var loading: bool

    constructor (store: Store)
      ensures this.store == store && recipes == [] && loading
    {
      this.store := store;
      recipes := [];
      loading := true;
    }

    /** `loadFavorites` (frontend/src/Favorites.tsx:13-50): both the empty path and
        the projection path end with the loading flag cleared. */
    method LoadFavorites()
      modifies this`recipes, this`loading
      ensures recipes == LoadedRecipes(store.favorites, store.savedRecipes)
      ensures !loading
    {
      var favIds := store.favorites;
      if |favIds| == 0 {
        recipes := [];
        loading := false;
        return;
      }
      var savedMap := store.savedRecipes;
      recipes := LoadedRecipes(favIds, savedMap);
      loading := false;
    }
  }
}

=== FILE: generator.dfy ===
/** The generative steps (core/generator.py): reranking a candidate list into one
    `(index, reason)` pair and narrating a candidate list.  The model is an oracle;
    what is modelled is the prompt data built from the candidates, the unwrapping of
    the reply's content, the index/reason parser and every fixed fallback. */
module Generator {
  import opened Wrappers
  import opened Text
  import opened Recipes
  import opened Llm

  /** The pair `smart_select_and_comment` returns. */
  datatype Selection = Selection(index: int, reason: string)

  const NoClientReason: string := "API Key 未配置，默认推荐："
  const NoCandidatesReason: string := "没有候选菜谱。"
  const FailureReason: string := "为您推荐以下菜谱："
  const Separator: string := "|||"
  const SnippetBudget: nat := 150

  /** `content[:150].replace('\n', ' ')`: at most 150 characters, none a newline. */
  function Snippet(content: string): (r: string)
    ensures |r| == if |content| < SnippetBudget then |content| else SnippetBudget
    ensures forall i :: 0 <= i < |r| ==> r[i] == if content[i] == '\n' then ' ' else content[i]
    ensures '\n' !in r
  {
    var cut := if |content| <= SnippetBudget then content else content[..SnippetBudget];
    seq(|cut|, i requires 0 <= i < |cut| => if cut[i] == '\n' then ' ' else cut[i])
  }

  /** The prompt block describing candidate `i`: its name, `str(tags)` and snippet. */
  function ListingEntry(i: nat, rec: Record): string
  {
    "选项[" + Decimal(i) + "]: " + rec.name + "\n"
    + "   - 标签: " + ShowTags(rec.tags) + "\n"
    + "   - 简介: " + Snippet(rec.content) + "...\n\n"
  }

  /** The blocks of all candidates, numbered from 0 in list order. */
  function Listing(cands: seq<Record>): (r: string)
    ensures r == "" <==> |cands| == 0
  {
    if |cands| == 0 then ""
    else Listing(cands[..|cands| - 1]) + ListingEntry(|cands| - 1, cands[|cands| - 1])
  }

  /** Candidate `i` is announced as option `i`: its block follows the blocks of
      candidates `0..i-1` at the start of the listing, so the index the model names
      refers to that candidate. */
  lemma {:induction false} ListingNumbersCandidates(cands: seq<Record>, i: nat)
    requires i < |cands|
    ensures Listing(cands[..i]) + ListingEntry(i, cands[i]) <= Listing(cands)
    decreases |cands|
  {
    var n := |cands| - 1;
    var init := cands[..n];
    assert cands[..n + 1] == cands;
    assert Listing(cands) == Listing(init) + ListingEntry(n, cands[n]);
    if i < n {
      ListingNumbersCandidates(init, i);
      assert init[..i] == cands[..i] && init[i] == cands[i];
      PrefixOfAppend(Listing(cands[..i]) + ListingEntry(i, cands[i]), Listing(init), ListingEntry(n, cands[n]));
    }
  }


  /** The `candidates_str +=` loop (core/generator.py:60-67). */
  method BuildListing(cands: seq<Record>) returns (s: string)
    ensures s == Listing(cands)
  {
    s := "";
    var i := 0;
    while i < |cands|
      invariant 0 <= i <= |cands|
      invariant s == Listing(cands[..i])
    {
      assert cands[..i + 1][..i] == cands[..i];
      s := s + ListingEntry(i, cands[i]);
      i := i + 1;
    }
    assert cands[..i] == cands;
  }

  /** Steps 1-2 of the unwrap chain and the `str()` that follows: a list of parts is
      joined by single spaces, a dictionary gives its `'text'` entry or, without one,
      its own `str()` form. */
  function Unwrap(c: Content): (r: string)
    ensures c.Plain? ==> r == c.text
    ensures c.Keyed? && c.textEntry.Some? ==> r == Show(c.textEntry.value)
    ensures c.Keyed? && c.textEntry.None? ==> r == c.shown
    ensures c.Parts? && |c.parts| == 0 ==> r == ""
    ensures c.Parts? && |c.parts| > 0 ==>
              var first := Show(c.parts[0]);
              var last := Show(c.parts[|c.parts| - 1]);
              && |first| <= |r| && r[..|first|] == first
              && |last| <= |r| && r[|r| - |last|..] == last
  {
    match c
    case Plain(t) => t
    case Parts(ps) =>
      var shown := seq(|ps|, i requires 0 <= i < |ps| => Show(ps[i]));
      if |ps| == 0 then Join(" ", shown)
      else
        JoinEnds(" ", shown);
        Join(" ", shown)
    case Keyed(Some(v), _) => Show(v)
    case Keyed(None, shown) => shown
  }

  /** A list reply of one part is that part's `str()` form. */
  lemma UnwrapSinglePart(v: Value)
    ensures Unwrap(Parts([v])) == Show(v)
  {
  }

  /** A list reply splits at any point into the two halves' texts joined by one
      space: every part's text appears in order, separated by single spaces. */
  lemma UnwrapPartsAppend(a: seq<Value>, b: seq<Value>)
    requires |a| > 0 && |b| > 0
    ensures Unwrap(Parts(a + b)) == Unwrap(Parts(a)) + " " + Unwrap(Parts(b))
  {
    var sa := seq(|a|, i requires 0 <= i < |a| => Show(a[i]));
    var sb := seq(|b|, i requires 0 <= i < |b| => Show(b[i]));
    var ab := a + b;
    var sab := seq(|ab|, i requires 0 <= i < |ab| => Show(ab[i]));
    assert sab == sa + sb;
    JoinAppend(" ", sa, sb);
  }

  /** The guard of step 3: the text looks like a printed dictionary with a text field. */
  predicate LooksLikeDict(t: string)
  {
    StartsWith(t, "{") && Contains(t, "text")
  }

  /** The reply text `smart_select_and_comment` parses (core/generator.py:107-125).
      Line 119 calls `ast.literal_eval`, but `ast` is not bound in that scope, so the
      call raises `NameError`, the bare `except` swallows it and the text is kept. */
  function SelectionText(c: Content): (r: string)
    ensures r == [] || (!IsPySpace(r[0]) && !IsPySpace(r[|r| - 1]))
  {
    var t := PyStrip(Unwrap(c));
    // lines 117-123: the `NameError` from the unbound `ast` is swallowed and `t` is kept
    PyStrip(t)
  }

  /** The stringified-dictionary step never changes the rerank text: it is the
      stripped unwrap, even for a reply such as `{'text': '1 ||| ...'}`. */
  lemma SelectionTextIsStrippedUnwrap(c: Content)
    ensures SelectionText(c) == PyStrip(Unwrap(c))
  {
    TrimIdempotent(Unwrap(c), IsPySpace);
  }

  /** The `|||` rule (core/generator.py:130-134): the first digit run before the
      first separator and the stripped text after it, when that run exists. */
  function SeparatorRule(text: string): (r: Option<Selection>)
    ensures r.Some? ==> r.value.index >= 0
    ensures !Contains(text, Separator) ==> r.None?
    ensures Contains(text, Separator) ==>
              var p := IndexOf(text, Separator).value;
              && (r.Some? <==> exists i :: 0 <= i < p && IsDigit(text[i]))
              && (r.Some? ==>
                    r.value == Selection(DigitsValue(FirstDigitRun(text[..p]).value), PyStrip(text[p + |Separator|..])))
  {
    match SplitOnce(text, Separator)
    case None => None
    case Some((left, right)) =>
      match FirstDigitRun(left)
      case None => None
      case Some(d) => Some(Selection(DigitsValue(d), PyStrip(right)))
  }

  /** The parse of a reply text for a non-empty candidate list
      (core/generator.py:130-146): the `|||` rule, else a leading digit run `N`
      (index `N` when it names a candidate, otherwise the `IndexError` fallback), else
      the first candidate. */
  function ParseSelection(text: string, cands: seq<Record>): (sel: Selection)
    requires |cands| > 0
    ensures sel.index >= 0
    ensures SeparatorRule(text).None? ==> sel.index < |cands|
    ensures SeparatorRule(text).Some? ==> sel == SeparatorRule(text).value
    ensures SeparatorRule(text).None? && LeadingDigitRun(text).Some? ==>
              var n := DigitsValue(LeadingDigitRun(text).value);
              sel == if n < |cands| then Selection(n, "为您推荐【" + cands[n].name + "】") else Selection(0, FailureReason)
    ensures SeparatorRule(text).None? && (|text| == 0 || !IsDigit(text[0])) ==>
              sel == Selection(0, "试试这道【" + cands[0].name + "】，应该不错！")
  {
    match SeparatorRule(text)
    case Some(sel) => sel
    case None =>
      match LeadingDigitRun(text)
      case Some(d) =>
        var n := DigitsValue(d);
        if n < |cands| then Selection(n, "为您推荐【" + cands[n].name + "】")
        else Selection(0, FailureReason)
      case None => Selection(0, "试试这道【" + cands[0].name + "】，应该不错！")
  }

  /** What `smart_select_and_comment` returns for a client, a query and candidates. */
  function Select(client: Client, query: string, cands: seq<Record>): (sel: Selection)
    ensures client.NoClient? ==> sel == Selection(0, NoClientReason)
    ensures client.Connected? && |cands| == 0 ==> sel == Selection(0, NoCandidatesReason)
    ensures client.Connected? && |cands| > 0 && client.invoke(SelectRequest(query, Listing(cands))).Raised?
      ==> sel == Selection(0, FailureReason)
    ensures client.Connected? && |cands| > 0 && client.invoke(SelectRequest(query, Listing(cands))).Answered?
      ==> sel == ParseSelection(SelectionText(client.invoke(SelectRequest(query, Listing(cands))).content), cands)
    ensures sel.index >= 0
  {
    if client.NoClient? then Selection(0, NoClientReason)
    else if |cands| == 0 then Selection(0, NoCandidatesReason)
    else
      match client.invoke(SelectRequest(query, Listing(cands)))
      case Raised => Selection(0, FailureReason)
      case Answered(c) => ParseSelection(SelectionText(c), cands)
  }

  /** Only the `|||` rule can pick an index past the candidates: whenever the
      model answers and that rule does not fire on the reply text, the selected
      index names a candidate. */
  lemma SelectInRangeWithoutSeparator(client: Client, query: string, cands: seq<Record>, reply: Reply)
    requires client.Connected? && |cands| > 0
    requires reply == client.invoke(SelectRequest(query, Listing(cands)))
    requires reply.Answered? && SeparatorRule(SelectionText(reply.content)).None?
    ensures 0 <= Select(client, query, cands).index < |cands|
  {
    assert Select(client, query, cands) == ParseSelection(SelectionText(reply.content), cands);
  }

  /** On an answered call, an index past the candidates is always the `|||` rule's
      selection on the reply text. */
  lemma SelectAnsweredOutOfRange(client: Client, query: string, cands: seq<Record>, reply: Reply)
    requires |cands| > 0 && client.Connected?
    requires reply == client.invoke(SelectRequest(query, Listing(cands))) && reply.Answered?
    ensures Select(client, query, cands).index >= |cands| ==>
              SeparatorRule(SelectionText(reply.content)) == Some(Select(client, query, cands))
  {
    assert Select(client, query, cands) == ParseSelection(SelectionText(reply.content), cands);
  }

  /** `smart_select_and_comment` (core/generator.py:48-146). */
  method SmartSelectAndComment(client: Client, query: string, cands: seq<Record>)
    returns (index: int, reason: string)
    ensures Selection(index, reason) == Select(client, query, cands)
    ensures index >= 0
  {
    if client.NoClient? {
      return 0, NoClientReason;
    }
    if |cands| == 0 {
      return 0, NoCandidatesReason;
    }
    var listing := BuildListing(cands);
    var reply := client.invoke(SelectRequest(query, listing));
    match reply
    case Raised =>
      index, reason := 0, FailureReason;
    case Answered(c) =>
      var sel := ParseSelection(SelectionText(c), cands);
      index, reason := sel.index, sel.reason;
  }

  /** A reply in the requested `<index> ||| <reason>` format is read back as that
      index and the stripped reason, whatever the index is. */
  lemma WellFormedReplyParsed(i: nat, why: string, cands: seq<Record>)
    requires |cands| > 0
    ensures ParseSelection(Decimal(i) + " ||| " + why, cands) == Selection(i, PyStrip(why))
  {
    var d := Decimal(i);
    SplitAfterDigits(d, why);
    DigitRunBeforeSpace(d);
    DecimalRoundTrip(i);
    TrimDropsLeadingSpace(' ', why, IsPySpace);
  }

  /** The first separator in `d ||| why` is the one after the digits `d`. */
  lemma SplitAfterDigits(d: string, why: string)
    requires AllDigits(d)
    ensures SplitOnce(d + " ||| " + why, Separator) == Some((d + " ", " " + why))
  {
    var text := d + " ||| " + why;
    var left := d + " ";
    assert text == left + Separator + " " + why;
    forall k | 0 <= k < |left| ensures !OccursAt(text, Separator, k) {
      assert text[k] == left[k];
      assert left[k] != '|';
      if k + |Separator| <= |text| {
        assert text[k..k + |Separator|][0] == text[k];
      }
    }
    assert OccursAt(text, Separator, |left|) by {
      assert text[|left|..|left| + |Separator|] == Separator;
    }
    assert IndexOf(text, Separator) == Some(|left|);
    assert text[..|left|] == left;
    assert text[|left| + |Separator|..] == " " + why;
  }

  /** The first digit run of `d ` is the non-empty digit string `d`. */
  lemma DigitRunBeforeSpace(d: string)
    requires |d| > 0 && AllDigits(d)
    ensures FirstDigitRun(d + " ") == Some(d)
  {
    assert FirstDigit(d + " ") == Some(0);
    assert (d + " ")[0..] == d + " ";
    DigitPrefixStopsAtNonDigit(d, " ");
  }

  lemma {:induction false} DigitPrefixStopsAtNonDigit(d: string, rest: string)
    requires AllDigits(d)
    requires |rest| > 0 && !IsDigit(rest[0])
    ensures DigitPrefix(d + rest) == d
  {
    if |d| > 0 {
      assert (d + rest)[1..] == d[1..] + rest;
      DigitPrefixStopsAtNonDigit(d[1..], rest);
    }
  }

  /** The `|||` rule does not bound its index by the number of candidates: with one
      candidate, the reply `7 ||| 好吃` selects index 7. */
  lemma SeparatorIndexUnbounded(cands: seq<Record>)
    requires |cands| == 1
    ensures ParseSelection("7 ||| 好吃", cands).index == 7
  {
    assert Decimal(7) == "7";
    assert "7 ||| 好吃" == Decimal(7) + " ||| " + "好吃";
    WellFormedReplyParsed(7, "好吃", cands);
  }

  const NarrativeNoClient: string := "🤖 AI 厨师正在休息（未配置 API Key），请直接查看下方菜谱。"
  const NarrativeNoCandidates: string := "抱歉，没有找到相关菜谱，我也很难为您提供建议。"
  const NarrativeFailure: string := "基于您的食材偏好，我为您甄选了以下几道值得尝试的美味佳肴。"
  const SummaryLimit: nat := 5

  /** The summary line of one candidate: its name and `str(tags)`. */
  function SummaryLine(rec: Record): string
  {
    "- " + rec.name + " (标签: " + ShowTags(rec.tags) + ")\n"
  }

  /** The summary lines of the candidates, in list order. */
  function Summary(cands: seq<Record>): (r: string)
    ensures r == "" <==> |cands| == 0
  {
    if |cands| == 0 then ""
    else Summary(cands[..|cands| - 1]) + SummaryLine(cands[|cands| - 1])
  }

  /** The line of candidate `i` follows the lines of candidates `0..i-1` at the start
      of the summary. */
  lemma {:induction false} SummaryInOrder(cands: seq<Record>, i: nat)
    requires i < |cands|
    ensures Summary(cands[..i]) + SummaryLine(cands[i]) <= Summary(cands)
    decreases |cands|
  {
    var n := |cands| - 1;
    var init := cands[..n];
    assert cands[..n + 1] == cands;
    assert Summary(cands) == Summary(init) + SummaryLine(cands[n]);
    if i < n {
      SummaryInOrder(init, i);
      assert init[..i] == cands[..i] && init[i] == cands[i];
      PrefixOfAppend(Summary(cands[..i]) + SummaryLine(cands[i]), Summary(init), SummaryLine(cands[n]));
    }
  }


  /** The first five candidates (Python's `candidates[:5]`). */
  function FirstFive(cands: seq<Record>): (r: seq<Record>)
    ensures |r| <= SummaryLimit && |r| <= |cands| && r == cands[..|r|]
    ensures |cands| <= SummaryLimit ==> r == cands
  {
    if |cands| <= SummaryLimit then cands else cands[..SummaryLimit]
  }

  /** The `candidates_summary +=` loop over `candidates[:5]` (core/generator.py:159-161). */
  method BuildSummary(cands: seq<Record>) returns (s: string)
    ensures s == Summary(FirstFive(cands))
  {
    var top := FirstFive(cands);
    s := "";
    var i := 0;
    while i < |top|
      invariant 0 <= i <= |top|
      invariant s == Summary(top[..i])
    {
      assert top[..i + 1][..i] == top[..i];
      s := s + SummaryLine(top[i]);
      i := i + 1;
    }
    assert top[..i] == top;
  }

  /** The reply text `generate_rag_answer` returns (core/generator.py:199-218): here
      `ast` is imported locally, so a printed dictionary with a `'text'` entry
      (as decided by `literalEval`) is replaced by that entry. */
  function NarrativeText(c: Content, literalEval: string -> Option<Value>): (r: string)
    ensures
      var t := PyStrip(Unwrap(c));
      && (!LooksLikeDict(t) || literalEval(t).None? ==> r == t)
      && (LooksLikeDict(t) && literalEval(t).Some? ==> r == Show(literalEval(t).value))
    ensures c.Plain? && !StartsWith(PyStrip(c.text), "{") ==> r == PyStrip(c.text)
  {
    var t := PyStrip(Unwrap(c));
    if LooksLikeDict(t) then
      match literalEval(t)
      case Some(v) => Show(v)
      case None => t
    else t
  }

  /** Both components read a reply the same way unless it looks like a printed
      dictionary: as its stripped unwrapped text. */
  lemma UnwrapShared(c: Content, literalEval: string -> Option<Value>)
    requires !LooksLikeDict(PyStrip(Unwrap(c)))
    ensures NarrativeText(c, literalEval) == SelectionText(c) == PyStrip(Unwrap(c))
  {
    SelectionTextIsStrippedUnwrap(c);
  }

  /** What `generate_rag_answer` returns: three distinct fixed texts for no client,
      no candidates and a failed call, otherwise the reply's text. */
  function Narrative(client: Client, literalEval: string -> Option<Value>, query: string, cands: seq<Record>): (r: string)
    ensures client.NoClient? ==> r == NarrativeNoClient
    ensures client.Connected? && |cands| == 0 ==> r == NarrativeNoCandidates
    ensures client.Connected? && |cands| > 0 && client.invoke(SummaryRequest(query, Summary(FirstFive(cands)))).Raised?
      ==> r == NarrativeFailure
    ensures client.Connected? && |cands| > 0 && client.invoke(SummaryRequest(query, Summary(FirstFive(cands)))).Answered?
      ==> r == NarrativeText(client.invoke(SummaryRequest(query, Summary(FirstFive(cands)))).content, literalEval)
  {
    if client.NoClient? then NarrativeNoClient
    else if |cands| == 0 then NarrativeNoCandidates
    else
      match client.invoke(SummaryRequest(query, Summary(FirstFive(cands))))
      case Raised => NarrativeFailure
      case Answered(c) => NarrativeText(c, literalEval)
  }

  /** `generate_rag_answer` (core/generator.py:148-222). */
  method GenerateRagAnswer(client: Client, literalEval: string -> Option<Value>, query: string, cands: seq<Record>)
    returns (answer: string)
    ensures answer == Narrative(client, literalEval, query, cands)
  {
    if client.NoClient? {
      return NarrativeNoClient;
    }
    if |cands| == 0 {
      return NarrativeNoCandidates;
    }
    var summary := BuildSummary(cands);
    var reply := client.invoke(SummaryRequest(query, summary));
    match reply
    case Raised =>
      answer := NarrativeFailure;
    case Answered(c) =>
      answer := NarrativeText(c, literalEval);
  }

  /** The three fallback texts are pairwise distinct. */
  lemma NarrativeFallbacksDistinct()
    ensures NarrativeNoClient != NarrativeNoCandidates
    ensures NarrativeNoClient != NarrativeFailure
    ensures NarrativeNoCandidates != NarrativeFailure
  {
    assert NarrativeNoClient[0] != NarrativeNoCandidates[0];
    assert NarrativeNoClient[0] != NarrativeFailure[0];
    assert NarrativeNoCandidates[0] != NarrativeFailure[0];
  }

  /** Only the first five candidates reach the model: candidates beyond the fifth
      never change the narrative. */
  lemma NarrativeSeesFirstFive(client: Client, literalEval: string -> Option<Value>, query: string, cands: seq<Record>)
    ensures Narrative(client, literalEval, query, cands) == Narrative(client, literalEval, query, FirstFive(cands))
  {
    if |cands| > SummaryLimit {
      assert FirstFive(FirstFive(cands)) == FirstFive(cands);
    }
  }
}

=== FILE: llm.dfy ===
/** The chat-model backend, seen from the pipeline as an oracle: it is either not
    configured, or it maps each request to a reply or raises.  What the model says
    is arbitrary; only the shapes of its replies are fixed. */
module Llm {
  import opened Wrappers

  /** A Python object inside a reply: a string, or any other object known by its `str()`. */
  datatype Value = Str(s: string) | Other(shown: string)

  /** Python's `str(v)`. */
  function Show(v: Value): string
  {
    match v
    case Str(s) => s
    case Other(shown) => shown
  }

  /** The `content` of a reply message: plain text, a list of parts, or a dictionary
      given by its `'text'` entry (if any) and its `str()` form. */
  datatype Content = Plain(text: string) | Parts(parts: seq<Value>) | Keyed(textEntry: Option<Value>, shown: string)

  /** The outcome of one invocation: the reply, or an exception (network, quota, timeout, ...). */
  datatype Reply = Raised | Answered(content: Content)

  /** The data each kind of request interpolates into its prompts. */
  datatype Request =
    | SelectRequest(query: string, listing: string)
    | SummaryRequest(query: string, summary: string)
    | ConsultRequest(query: string, context: string, history: string)

  /** A model client: absent (no API key configured) or present. */
  datatype Client = NoClient | Connected(invoke: Request -> Reply)
}

=== FILE: recipes.dfy ===
/** The records that flow through the pipeline: a retrieved candidate, its raw
    instruction steps, and the formatted recipe that the HTTP layer returns and the
    browser stores. */
module Recipes {
  import opened Wrappers
  import opened Text

  /** A `tags` value: the JSON text the similarity index stores, or a decoded list. */
  datatype Tags = TagText(text: string) | TagList(items: seq<string>)

  /** Python's `str(tags)`: text is itself, a list of strings prints as `['a', 'b']`. */
  function ShowTags(t: Tags): string
  {
    match t
    case TagText(s) => s
    case TagList(items) =>
      "[" + Join(", ", QuotedTags(items)) + "]"
  }

  /** The quoted form `'t'` of each tag, in order. */
  function QuotedTags(items: seq<string>): (r: seq<string>)
    ensures |r| == |items|
    ensures forall i :: 0 <= i < |items| ==> r[i] == "'" + items[i] + "'"
  {
    seq(|items|, i requires 0 <= i < |items| => "'" + items[i] + "'")
  }

  /** A list of tags prints between brackets: `[]` when empty, `['t']` for one tag. */
  lemma ShowTagList(items: seq<string>)
    ensures var r := ShowTags(TagList(items)); 2 <= |r| && r[0] == '[' && r[|r| - 1] == ']'
    ensures |items| == 0 ==> ShowTags(TagList(items)) == "[]"
    ensures |items| == 1 ==> ShowTags(TagList(items)) == "['" + items[0] + "']"
  {
    var quoted := QuotedTags(items);
    if |items| == 1 {
      assert quoted == ["'" + items[0] + "'"];
      JoinSingle(", ", quoted[0]);
    }
  }

  /** Printing two lists of tags back to back gives the first print without its
      closing bracket, a comma and a space, then the second without its opening
      bracket: with `ShowTagList` this fixes the print of every list of tags. */
  lemma ShowTagListAppend(a: seq<string>, b: seq<string>)
    requires |a| > 0 && |b| > 0
    ensures
      var ra := ShowTags(TagList(a));
      var rb := ShowTags(TagList(b));
      2 <= |ra| && 2 <= |rb| && ShowTags(TagList(a + b)) == ra[..|ra| - 1] + ", " + rb[1..]
  {
    var qa, qb := QuotedTags(a), QuotedTags(b);
    assert QuotedTags(a + b) == qa + qb;
    JoinAppend(", ", qa, qb);
    BracketSplice(Join(", ", qa), Join(", ", qb));
  }

  lemma BracketSplice(ja: string, jb: string)
    ensures var ra, rb := "[" + ja + "]", "[" + jb + "]";
      ra[..|ra| - 1] + ", " + rb[1..] == "[" + (ja + ", " + jb) + "]"
  {
    var ra, rb := "[" + ja + "]", "[" + jb + "]";
    assert ra[..|ra| - 1] == "[" + ja;
    assert rb[1..] == jb + "]";
  }

  /** One raw instruction step, a dictionary whose keys depend on the data source. */
  datatype RawStep = RawStep(imageUrl: Option<string>, imgLink: Option<string>, description: Option<string>)

  /** An `instructions` value: the JSON text the index stores, or a decoded list of steps. */
  datatype Instructions = StepsText(text: string) | StepList(steps: seq<RawStep>)

  /** A candidate as retrieval returns it: metadata with defaults applied, the page
      content, and the distance score (lower is closer). */
  datatype Record = Record(
    id: string,
    name: string,
    tags: Tags,
    image: string,
    instructions: Instructions,
    content: string,
    score: real)

  /** A formatted step: 1-based index, description, and an image link or none. */
  datatype Step = Step(stepIndex: nat, description: string, imageUrl: Option<string>)

  /** A formatted recipe (`RecipeResponse` on the server, `Recipe` in the browser). */
  datatype Recipe = Recipe(
    recipeId: string,
    recipeName: string,
    tags: Tags,
    coverImage: string,
    steps: seq<Step>,
    message: string)
}

=== FILE: retriever.dfy ===
/** Retrieval post-processing (core/retriever.py, `retrieve_docs`): the similarity
    search is an oracle whose ordered `(document, score)` hits are an input; this
    module keeps the hits within the distance threshold, builds candidate records
    with metadata defaults, and optionally drops candidates that mention a term the
    user avoids. */
module Retriever {
  import opened Wrappers
  import opened Text
  import opened Sequences
  import opened Recipes

  /** The metadata stored with a document; any key may be missing. */
  datatype Metadata = Metadata(
    id: Option<string>,
    name: Option<string>,
    tags: Option<Tags>,
    image: Option<string>,
    instructions: Option<Instructions>)

  datatype Document = Document(metadata: Metadata, pageContent: string)

  /** One search result: a document and its distance score. */
  datatype Hit = Hit(doc: Document, score: real)

  /** The `dislikes` and `allergies` lists of a preferences dictionary (a missing key is `[]`). */
  datatype Preferences = Preferences(dislikes: seq<string>, allergies: seq<string>)

  const UnknownName: string := "未知"

  /** The record built for a hit: page content and score are copied, and each missing
      metadata key takes its default (`''`, `'未知'`, `''`, `''`, `[]`). */
  function ToRecord(h: Hit): (r: Record)
    ensures r.content == h.doc.pageContent && r.score == h.score
    ensures h.doc.metadata.id.None? ==> r.id == ""
    ensures h.doc.metadata.name.None? ==> r.name == UnknownName
    ensures h.doc.metadata.tags.None? ==> r.tags == TagText("")
    ensures h.doc.metadata.image.None? ==> r.image == ""
    ensures h.doc.metadata.instructions.None? ==> r.instructions == StepList([])
    ensures h.doc.metadata.id.Some? ==> r.id == h.doc.metadata.id.value
    ensures h.doc.metadata.name.Some? ==> r.name == h.doc.metadata.name.value
    ensures h.doc.metadata.tags.Some? ==> r.tags == h.doc.metadata.tags.value
    ensures h.doc.metadata.image.Some? ==> r.image == h.doc.metadata.image.value
    ensures h.doc.metadata.instructions.Some? ==> r.instructions == h.doc.metadata.instructions.value
  {
    var m := h.doc.metadata;
    Record(
      m.id.GetOr(""),
      m.name.GetOr(UnknownName),
      m.tags.GetOr(TagText("")),
      m.image.GetOr(""),
      m.instructions.GetOr(StepList([])),
      h.doc.pageContent,
      h.score)
  }

  /** The record of every hit, in search order. */
  function Records(hits: seq<Hit>): (rs: seq<Record>)
    ensures |rs| == |hits|
    ensures forall i :: 0 <= i < |hits| ==> rs[i] == ToRecord(hits[i])
  {
    seq(|hits|, i requires 0 <= i < |hits| => ToRecord(hits[i]))
  }

  /** The records of the hits whose score is at most the threshold. */
  function Passing(hits: seq<Hit>, threshold: real): (r: seq<Record>)
    ensures forall rec :: rec in r ==> rec.score <= threshold
    ensures forall i :: 0 <= i < |hits| && hits[i].score <= threshold ==> ToRecord(hits[i]) in r
  {
    var rs := Records(hits);
    assert forall i :: 0 <= i < |hits| ==> rs[i] in rs;
    Filter(rs, (rec: Record) => rec.score <= threshold)
  }

  /** The threshold stage is an order-preserving subsequence of the search results. */
  lemma PassingIsOrderedSubsequence(hits: seq<Hit>, threshold: real)
    ensures IsSubsequence(Passing(hits, threshold), Records(hits))
    ensures |Passing(hits, threshold)| <= |hits|
  {
    FilterIsSubsequence(Records(hits), (rec: Record) => rec.score <= threshold);
    SubsequenceLength(Passing(hits, threshold), Records(hits));
  }

  /** The threshold loop (core/retriever.py:56-74). */
  method ThresholdFilter(hits: seq<Hit>, threshold: real) returns (filtered: seq<Record>)
    ensures filtered == Passing(hits, threshold)
  {
    filtered := [];
    var i := 0;
    while i < |hits|
      invariant 0 <= i <= |hits|
      invariant filtered == Passing(hits[..i], threshold)
    {
      var h := hits[i];
      assert hits[..i + 1] == hits[..i] + [h];
      PassingSnoc(hits[..i], h, threshold);
      if h.score <= threshold {
        filtered := filtered + [ToRecord(h)];
      }
      i := i + 1;
    }
    assert hits[..i] == hits;
  }

  /** One more hit extends the threshold stage by its record exactly when it passes. */
  lemma PassingSnoc(hits: seq<Hit>, h: Hit, threshold: real)
    ensures Passing(hits + [h], threshold) ==
      Passing(hits, threshold) + (if h.score <= threshold then [ToRecord(h)] else [])
  {
    assert Records(hits + [h]) == Records(hits) + [ToRecord(h)];
    FilterSnoc(Records(hits), ToRecord(h), (rec: Record) => rec.score <= threshold);
  }

  /** The lower-cased, non-empty entries of `words`, in order. */
  function AvoidTerms(words: seq<string>): (r: seq<string>)
    ensures |r| <= |words|
    ensures forall i :: 0 <= i < |r| ==> r[i] != ""
  {
    if |words| == 0 then []
    else (if words[0] == "" then [] else [Lower(words[0])]) + AvoidTerms(words[1..])
  }

  /** The avoid list (core/retriever.py:79-83): dislikes, then allergies. */
  function AvoidList(p: Preferences): seq<string>
  {
    AvoidTerms(p.dislikes + p.allergies)
  }

  lemma {:induction false} AvoidTermsAppend(a: seq<string>, b: seq<string>)
    ensures AvoidTerms(a + b) == AvoidTerms(a) + AvoidTerms(b)
  {
    if |a| == 0 {
      assert a + b == b;
    } else {
      assert (a + b)[1..] == a[1..] + b;
      AvoidTermsAppend(a[1..], b);
    }
  }

  lemma {:induction false} AvoidTermsMembers(words: seq<string>, w: string)
    ensures w in AvoidTerms(words) <==> exists x :: x in words && x != "" && w == Lower(x)
  {
    if |words| > 0 {
      AvoidTermsMembers(words[1..], w);
      if exists x :: x in words && x != "" && w == Lower(x) {
        var x :| x in words && x != "" && w == Lower(x);
        if x != words[0] {
          assert x in words[1..];
        }
      }
    }
  }

  /** The avoid list holds the lower-cased dislikes followed by the lower-cased
      allergies, empty entries removed, and nothing else. */
  lemma AvoidListSpec(p: Preferences)
    ensures AvoidList(p) == AvoidTerms(p.dislikes) + AvoidTerms(p.allergies)
    ensures forall w :: w in AvoidList(p) <==>
      exists x :: x in p.dislikes + p.allergies && x != "" && w == Lower(x)
  {
    AvoidTermsAppend(p.dislikes, p.allergies);
    forall w ensures w in AvoidList(p) <==> exists x :: x in p.dislikes + p.allergies && x != "" && w == Lower(x) {
      AvoidTermsMembers(p.dislikes + p.allergies, w);
    }
  }

  /** The text screened for avoid terms: name, `str(tags)` and content, lower-cased. */
  function ScreenText(rec: Record): string
  {
    Lower(rec.name + ShowTags(rec.tags) + rec.content)
  }

  /** Some avoid term is a substring of the record's screened text. */
  predicate Mentions(rec: Record, avoid: seq<string>)
  {
    exists k :: 0 <= k < |avoid| && Contains(ScreenText(rec), avoid[k])
  }

  /** The records that mention no avoid term, in their original order. */
  function Unblocked(records: seq<Record>, avoid: seq<string>): seq<Record>
  {
    Filter(records, (rec: Record) => !Mentions(rec, avoid))
  }

  /** One more record extends the unblocked records by itself exactly when it mentions
      no avoid term. */
  lemma UnblockedSnoc(records: seq<Record>, rec: Record, avoid: seq<string>)
    ensures Unblocked(records + [rec], avoid) ==
      Unblocked(records, avoid) + (if Mentions(rec, avoid) then [] else [rec])
  {
    FilterSnoc(records, rec, (r: Record) => !Mentions(r, avoid));
  }

  /** The inner loop over the avoid list with its `is_safe` flag and `break`
      (core/retriever.py:89-96). */
  method CheckSafe(rec: Record, avoid: seq<string>) returns (isSafe: bool)
    ensures isSafe <==> !Mentions(rec, avoid)
  {
    var text := ScreenText(rec);
    isSafe := true;
    var j := 0;
    while j < |avoid|
      invariant 0 <= j <= |avoid|
      invariant isSafe
      invariant forall k :: 0 <= k < j ==> !Contains(text, avoid[k])
    {
      if Contains(text, avoid[j]) {
        isSafe := false;
        break;
      }
      j := j + 1;
    }
  }

  /** One step of the exclusion loop: record `i` is kept exactly when it is safe. */
  lemma UnblockedStep(records: seq<Record>, i: nat, avoid: seq<string>, safe: bool)
    requires i < |records|
    requires safe <==> !Mentions(records[i], avoid)
    ensures Unblocked(records[..i + 1], avoid) == Unblocked(records[..i], avoid) + (if safe then [records[i]] else [])
  {
    assert records[..i + 1] == records[..i] + [records[i]];
    UnblockedSnoc(records[..i], records[i], avoid);
  }

  /** The exclusion loop over the threshold-filtered records (core/retriever.py:87-100). */
  method ScreenRecords(records: seq<Record>, avoid: seq<string>) returns (kept: seq<Record>)
    ensures kept == Unblocked(records, avoid)
  {
    kept := [];
    var i := 0;
    while i < |records|
      invariant 0 <= i <= |records|
      invariant kept == Unblocked(records[..i], avoid)
    {
      var rec := records[i];
      var isSafe := CheckSafe(rec, avoid);
      UnblockedStep(records, i, avoid, isSafe);
      if isSafe {
        kept := kept + [rec];
      }
      i := i + 1;
    }
    assert records[..i] == records;
  }

  /** What `retrieve_docs` returns for a search outcome (`None` when the store could
      not be opened), a threshold and optional preferences. */
  function Retrieved(store: Option<seq<Hit>>, threshold: real, preferences: Option<Preferences>): (r: seq<Record>)
    ensures store.None? ==> r == []
    ensures forall rec :: rec in r ==> rec.score <= threshold
  {
    match store
    case None => []
    case Some(hits) =>
      var filtered := Passing(hits, threshold);
      if preferences.Some? && |AvoidList(preferences.value)| > 0
      then Unblocked(filtered, AvoidList(preferences.value))
      else filtered
  }

  /** `retrieve_docs` (core/retriever.py:43-102). */
  method RetrieveDocs(store: Option<seq<Hit>>, threshold: real, preferences: Option<Preferences>)
    returns (results: seq<Record>)
    ensures store.None? ==> results == []
    ensures results == Retrieved(store, threshold, preferences)
  {
    if store.None? {
      return [];
    }
    var filtered := ThresholdFilter(store.value, threshold);
    if preferences.Some? {
      var avoid := AvoidList(preferences.value);
      if |avoid| > 0 {
        results := ScreenRecords(filtered, avoid);
        return;
      }
    }
    results := filtered;
  }

  /** Without preferences, or with an empty avoid list, the result is exactly the
      threshold-filtered list. */
  lemma RetrievedWithoutAvoidTerms(hits: seq<Hit>, threshold: real, preferences: Option<Preferences>)
    requires preferences.None? || AvoidList(preferences.value) == []
    ensures Retrieved(Some(hits), threshold, preferences) == Passing(hits, threshold)
  {
  }

  /** No surviving record's screened text contains an avoid term. */
  lemma RetrievedAvoidsTerms(hits: seq<Hit>, threshold: real, p: Preferences)
    ensures forall rec, w :: rec in Retrieved(Some(hits), threshold, Some(p)) && w in AvoidList(p) ==>
      !Contains(ScreenText(rec), w)
  {
    var avoid := AvoidList(p);
    var r := Retrieved(Some(hits), threshold, Some(p));
    forall rec, w | rec in r && w in avoid ensures !Contains(ScreenText(rec), w) {
      assert !Mentions(rec, avoid);
      var k :| 0 <= k < |avoid| && avoid[k] == w;
    }
  }

  /** Every hit within the threshold that mentions no avoid term survives, and the
      survivors keep the search order. */
  lemma RetrievedKeepsSafeHitsInOrder(hits: seq<Hit>, threshold: real, p: Preferences)
    ensures forall i :: 0 <= i < |hits| && hits[i].score <= threshold && !Mentions(ToRecord(hits[i]), AvoidList(p)) ==>
      ToRecord(hits[i]) in Retrieved(Some(hits), threshold, Some(p))
    ensures IsSubsequence(Retrieved(Some(hits), threshold, Some(p)), Records(hits))
  {
    var avoid := AvoidList(p);
    var filtered := Passing(hits, threshold);
    PassingIsOrderedSubsequence(hits, threshold);
    if |avoid| > 0 {
      FilterIsSubsequence(filtered, (rec: Record) => !Mentions(rec, avoid));
      SubsequenceTransitive(Unblocked(filtered, avoid), filtered, Records(hits));
    }
  }

  /** A spicy Kung Pao Chicken at distance 0.2 passes the default threshold 1.0. */
  lemma KungPaoChickenIncluded()
    ensures
      var doc := Document(Metadata(None, Some("Kung Pao Chicken"), Some(TagList(["spicy"])), None, None), "");
      ToRecord(Hit(doc, 0.2)) in Retrieved(Some([Hit(doc, 0.2)]), 1.0, None)
  {
  }

  lemma LowerGarnish()
    ensures Lower("Garnish: Cilantro") == "garnish: cilantro"
  {
  }

  /** A record whose content reads "Garnish: Cilantro" mentions "cilantro", whatever
      its name and tags. */
  lemma GarnishMentionsCilantro(rec: Record)
    requires rec.content == "Garnish: Cilantro"
    ensures Mentions(rec, ["cilantro"])
  {
    var prefix := rec.name + ShowTags(rec.tags);
    var text := ScreenText(rec);
    LowerAppend(prefix, rec.content);
    LowerGarnish();
    assert text == Lower(prefix) + "garnish: cilantro";
    assert text[|prefix| + 9..|prefix| + 17] == "cilantro";
    assert OccursAt(text, "cilantro", |prefix| + 9);
    ContainsIff(text, "cilantro");
    assert ["cilantro"][0] == "cilantro";
  }

  /** A single hit within the threshold passes as its own record. */
  lemma SingleHitPasses(h: Hit, threshold: real)
    requires h.score <= threshold
    ensures Passing([h], threshold) == [ToRecord(h)]
  {
    assert Records([h]) == [ToRecord(h)];
    assert [ToRecord(h)][..0] == [];
  }

  /** A hit within the threshold whose content reads "Garnish: Cilantro" is dropped
      when the user dislikes "cilantro", whatever its metadata and whatever the case
      of the match, and kept when there are no preferences. */
  lemma CilantroExcluded(m: Metadata, score: real)
    requires score <= 1.0
    ensures
      var h := Hit(Document(m, "Garnish: Cilantro"), score);
      && Retrieved(Some([h]), 1.0, Some(Preferences(["cilantro"], []))) == []
      && Retrieved(Some([h]), 1.0, None) == [ToRecord(h)]
  {
    var h := Hit(Document(m, "Garnish: Cilantro"), score);
    var rec := ToRecord(h);
    assert AvoidList(Preferences(["cilantro"], [])) == ["cilantro"] by {
      assert ["cilantro"] + [] == ["cilantro"];
      assert Lower("cilantro") == "cilantro";
    }
    SingleHitPasses(h, 1.0);
    GarnishMentionsCilantro(rec);
    UnblockedSnoc([], rec, ["cilantro"]);
    assert [] + [rec] == [rec];
  }


}

=== FILE: sequences.dfy ===
/** Generic facts about sequences used by every filtering, deduplicating and
    projecting step of the pipeline: order-preserving filters, subsequences and
    first-occurrence deduplication. */
module Sequences {

  /** No element occurs twice. */
  ghost predicate NoDuplicates<T>(s: seq<T>)
  {
    forall i, j :: 0 <= i < j < |s| ==> s[i] != s[j]
  }

  /** `idx` picks, in strictly increasing positions of `b`, the elements of `a`. */
  ghost predicate Embeds<T>(idx: seq<nat>, a: seq<T>, b: seq<T>)
  {
    && |idx| == |a|
    && (forall i :: 0 <= i < |idx| ==> idx[i] < |b| && a[i] == b[idx[i]])
    && (forall i, j :: 0 <= i < j < |idx| ==> idx[i] < idx[j])
  }

  /** `a` is `b` with some elements removed and the rest kept in their order. */
  ghost predicate IsSubsequence<T>(a: seq<T>, b: seq<T>)
  {
    exists idx: seq<nat> :: Embeds(idx, a, b)
  }

  /** A strictly increasing index sequence bounded by `n` is at most `n` long. */
  lemma {:induction false} IncreasingIndicesBound(idx: seq<nat>, n: nat)
    requires forall i :: 0 <= i < |idx| ==> idx[i] < n
    requires forall i, j :: 0 <= i < j < |idx| ==> idx[i] < idx[j]
    ensures |idx| <= n
  {
    if |idx| > 0 {
      var last := idx[|idx| - 1];
      IncreasingIndicesBound(idx[..|idx| - 1], last);
    }
  }

  lemma SubsequenceLength<T>(a: seq<T>, b: seq<T>)
    requires IsSubsequence(a, b)
    ensures |a| <= |b|
  {
    var idx: seq<nat> :| Embeds(idx, a, b);
    IncreasingIndicesBound(idx, |b|);
  }

  lemma SubsequenceTransitive<T>(a: seq<T>, b: seq<T>, c: seq<T>)
    requires IsSubsequence(a, b) && IsSubsequence(b, c)
    ensures IsSubsequence(a, c)
  {
    var ab: seq<nat> :| Embeds(ab, a, b);
    var bc: seq<nat> :| Embeds(bc, b, c);
    var ac: seq<nat> := seq(|ab|, i requires 0 <= i < |ab| => bc[ab[i]]);
    assert Embeds(ac, a, c);
  }

  /** The elements of `s` that satisfy `p`, in their original order.  Written from
      the back, so that a loop over a growing prefix can keep it as its invariant. */
  function Filter<T>(s: seq<T>, p: T -> bool): (r: seq<T>)
    ensures |r| <= |s|
    ensures forall x :: x in r ==> x in s && p(x)
    ensures forall x :: x in s && p(x) ==> x in r
  {
    if |s| == 0 then []
    else Filter(s[..|s| - 1], p) + (if p(s[|s| - 1]) then [s[|s| - 1]] else [])
  }

  lemma FilterSnoc<T>(s: seq<T>, x: T, p: T -> bool)
    ensures Filter(s + [x], p) == Filter(s, p) + (if p(x) then [x] else [])
  {
    assert (s + [x])[..|s|] == s;
  }

  /** A filter keeps the survivors in their original relative order. */
  lemma {:induction false} FilterIsSubsequence<T>(s: seq<T>, p: T -> bool)
    ensures IsSubsequence(Filter(s, p), s)
  {
    if |s| == 0 {
      assert Embeds([], Filter(s, p), s);
    } else {
      var init := s[..|s| - 1];
      FilterIsSubsequence(init, p);
      var idx: seq<nat> :| Embeds(idx, Filter(init, p), init);
      if p(s[|s| - 1]) {
        assert Embeds(idx + [|s| - 1], Filter(s, p), s);
      } else {
        assert Embeds(idx, Filter(s, p), s);
      }
    }
  }

  /** A filter whose predicate holds everywhere is the identity. */
  lemma {:induction false} FilterKeepsAll<T>(s: seq<T>, p: T -> bool)
    requires forall x :: x in s ==> p(x)
    ensures Filter(s, p) == s
  {
    if |s| > 0 {
      var init := s[..|s| - 1];
      forall x | x in init
        ensures p(x)
      {
        var k :| 0 <= k < |init| && init[k] == x;
        assert s[k] == x;
      }
      FilterKeepsAll(init, p);
      assert s[|s| - 1] in s;
      assert init + [s[|s| - 1]] == s;
    }
  }

  /** A filter never introduces a duplicate. */
  lemma {:induction false} FilterNoDuplicates<T>(s: seq<T>, p: T -> bool)
    requires NoDuplicates(s)
    ensures NoDuplicates(Filter(s, p))
  {
    if |s| > 0 {
      var init := s[..|s| - 1];
      FilterNoDuplicates(init, p);
      assert s[|s| - 1] !in init;
    }
  }

  /** The number of occurrences of `x` in `Filter(s, p)` is its number in `s` when
      `p(x)` and zero otherwise. */
  lemma {:induction false} FilterCount<T>(s: seq<T>, p: T -> bool, x: T)
    ensures multiset(Filter(s, p))[x] == if p(x) then multiset(s)[x] else 0
  {
    if |s| > 0 {
      var init := s[..|s| - 1];
      FilterCount(init, p, x);
      assert s == init + [s[|s| - 1]];
    }
  }

  /** The set of keys of the elements of `s`. */
  ghost function KeysOf<T, K>(s: seq<T>, key: T -> K): set<K>
  {
    set x | x in s :: key(x)
  }

  /** The position of the first element of `s` that has the same key as `x`. */
  function FirstIndex<T, K(==)>(s: seq<T>, key: T -> K, x: T): (i: nat)
    requires x in s
    ensures i < |s| && key(s[i]) == key(x)
    ensures forall j :: 0 <= j < i ==> key(s[j]) != key(x)
  {
    if key(s[0]) == key(x) then 0
    else 1 + FirstIndex(s[1..], key, x)
  }

  /** Past a head with another key, the first index is one more than in the tail. */
  lemma FirstIndexPastHead<T, K>(s: seq<T>, key: T -> K, x: T)
    requires |s| > 0 && x in s[1..] && key(x) != key(s[0])
    ensures x in s && FirstIndex(s, key, x) == 1 + FirstIndex(s[1..], key, x)
  {
  }

  /** Single pass keeping the first element of each key not already in `seen`
      and dropping later elements with the same key. */
  function DistinctBy<T, K(==)>(s: seq<T>, key: T -> K, seen: set<K>): (r: seq<T>)
    ensures |r| <= |s|
  {
    if |s| == 0 then []
    else if key(s[0]) in seen then DistinctBy(s[1..], key, seen)
    else [s[0]] + DistinctBy(s[1..], key, seen + {key(s[0])})
  }

  /** One step of the deduplication, taken at position `i`. */
  lemma DistinctByStep<T, K>(s: seq<T>, i: nat, key: T -> K, seen: set<K>)
    requires i < |s|
    ensures DistinctBy(s[i..], key, seen) ==
      if key(s[i]) in seen then DistinctBy(s[i + 1..], key, seen)
      else [s[i]] + DistinctBy(s[i + 1..], key, seen + {key(s[i])})
  {
    assert s[i..][0] == s[i] && s[i..][1..] == s[i + 1..];
  }

  /** Every survivor comes from `s`, its key was not yet seen, and it is the first
      element of `s` that carries its key. */
  lemma {:induction false} DistinctByKeepsFirsts<T, K>(s: seq<T>, key: T -> K, seen: set<K>)
    ensures forall i :: 0 <= i < |DistinctBy(s, key, seen)| ==>
      var x := DistinctBy(s, key, seen)[i];
      key(x) !in seen && x in s && x == s[FirstIndex(s, key, x)]
  {
    if |s| > 0 {
      var tail := s[1..];
      var r := DistinctBy(s, key, seen);
      var seen' := if key(s[0]) in seen then seen else seen + {key(s[0])};
      var rest := DistinctBy(tail, key, seen');
      DistinctByKeepsFirsts(tail, key, seen');
      forall i | 0 <= i < |r|
        ensures key(r[i]) !in seen && r[i] in s && r[i] == s[FirstIndex(s, key, r[i])]
      {
        if key(s[0]) in seen || i > 0 {
          var x := if key(s[0]) in seen then rest[i] else rest[i - 1];
          assert r[i] == x;
          assert x in tail && key(x) !in seen';
          assert FirstIndex(s, key, x) == 1 + FirstIndex(tail, key, x);
        }
      }
    }
  }

  /** The survivors appear in the order of their first occurrences in `s`. */
  lemma {:induction false} DistinctByInOrder<T, K>(s: seq<T>, key: T -> K, seen: set<K>)
    ensures forall i, j :: 0 <= i < j < |DistinctBy(s, key, seen)| ==>
      var r := DistinctBy(s, key, seen);
      r[i] in s && r[j] in s && FirstIndex(s, key, r[i]) < FirstIndex(s, key, r[j])
  {
    if |s| > 0 {
      var tail := s[1..];
      var r := DistinctBy(s, key, seen);
      var seen' := if key(s[0]) in seen then seen else seen + {key(s[0])};
      var rest := DistinctBy(tail, key, seen');
      DistinctByInOrder(tail, key, seen');
      DistinctByKeepsFirsts(tail, key, seen');
      forall i, j | 0 <= i < j < |r|
        ensures r[i] in s && r[j] in s && FirstIndex(s, key, r[i]) < FirstIndex(s, key, r[j])
      {
        var off := if key(s[0]) in seen then 0 else 1;
        var y := rest[j - off];
        assert r[j] == y;
        assert y in tail && key(y) !in seen';
        FirstIndexPastHead(s, key, y);
        if off == 0 || i > 0 {
          var x := rest[i - off];
          assert r[i] == x;
          assert x in tail && key(x) !in seen';
          FirstIndexPastHead(s, key, x);
        }
      }
    }
  }

  /** Some element of `r` carries key `k`. */
  ghost predicate HasKey<T, K>(r: seq<T>, key: T -> K, k: K)
  {
    exists i :: 0 <= i < |r| && key(r[i]) == k
  }

  /** Every key of `s` that was not already seen is carried by some survivor. */
  lemma {:induction false} DistinctByKeepsEveryKey<T, K>(s: seq<T>, key: T -> K, seen: set<K>)
    ensures forall x :: x in s && key(x) !in seen ==> HasKey(DistinctBy(s, key, seen), key, key(x))
  {
    if |s| > 0 {
      var tail := s[1..];
      var r := DistinctBy(s, key, seen);
      var seen' := if key(s[0]) in seen then seen else seen + {key(s[0])};
      var rest := DistinctBy(tail, key, seen');
      DistinctByKeepsEveryKey(tail, key, seen');
      var off := if key(s[0]) in seen then 0 else 1;
      assert r == if off == 0 then rest else [s[0]] + rest;
      forall x | x in s && key(x) !in seen
        ensures HasKey(r, key, key(x))
      {
        if off == 1 && key(x) == key(s[0]) {
          assert key(r[0]) == key(x);
        } else {
          assert x in tail by {
            assert x != s[0];
            assert s == [s[0]] + tail;
          }
          assert HasKey(rest, key, key(x));
          var i :| 0 <= i < |rest| && key(rest[i]) == key(x);
          assert r[i + off] == rest[i];
        }
      }
    }
  }

  /** No two survivors share a key. */
  lemma DistinctByKeysUnique<T, K>(s: seq<T>, key: T -> K, seen: set<K>)
    ensures forall i, j :: 0 <= i < j < |DistinctBy(s, key, seen)| ==>
      key(DistinctBy(s, key, seen)[i]) != key(DistinctBy(s, key, seen)[j])
  {
    DistinctByInOrder(s, key, seen);
  }

  /** The survivors form a subsequence of the input. */
  lemma DistinctByIsSubsequence<T, K>(s: seq<T>, key: T -> K, seen: set<K>)
    ensures IsSubsequence(DistinctBy(s, key, seen), s)
  {
    var r := DistinctBy(s, key, seen);
    DistinctByKeepsFirsts(s, key, seen);
    DistinctByInOrder(s, key, seen);
    var idx: seq<nat> := seq(|r|, i requires 0 <= i < |r| => FirstIndex(s, key, r[i]));
    assert Embeds(idx, r, s);
  }

  /** Deduplicating a concatenation deduplicates the first part, then the second part
      against the keys of the first. */
  lemma {:induction false} DistinctByAppend<T, K>(a: seq<T>, b: seq<T>, key: T -> K, seen: set<K>)
    ensures DistinctBy(a + b, key, seen) == DistinctBy(a, key, seen) + DistinctBy(b, key, seen + KeysOf(a, key))
  {
    if |a| == 0 {
      assert a + b == b;
      assert KeysOf(a, key) == {};
      assert seen + {} == seen;
    } else {
      assert (a + b)[1..] == a[1..] + b;
      assert (a + b)[0] == a[0];
      var k0 := key(a[0]);
      if k0 in seen {
        DistinctByAppend(a[1..], b, key, seen);
        assert seen + KeysOf(a[1..], key) == seen + KeysOf(a, key) by {
          assert KeysOf(a, key) == {k0} + KeysOf(a[1..], key) by {
            assert a == [a[0]] + a[1..];
          }
        }
      } else {
        DistinctByAppend(a[1..], b, key, seen + {k0});
        assert seen + {k0} + KeysOf(a[1..], key) == seen + KeysOf(a, key) by {
          assert KeysOf(a, key) == {k0} + KeysOf(a[1..], key) by {
            assert a == [a[0]] + a[1..];
          }
        }
      }
    }
  }

  /** Deduplicating a sequence that has no repeated key leaves it unchanged. */
  lemma {:induction false} DistinctByOfDistinct<T, K>(s: seq<T>, key: T -> K, seen: set<K>)
    requires forall i :: 0 <= i < |s| ==> key(s[i]) !in seen
    requires forall i, j :: 0 <= i < j < |s| ==> key(s[i]) != key(s[j])
    ensures DistinctBy(s, key, seen) == s
  {
    if |s| > 0 {
      DistinctByOfDistinct(s[1..], key, seen + {key(s[0])});
    }
  }

  function Identity<T>(x: T): T
  {
    x
  }

  /** Plain first-occurrence deduplication (JavaScript's `Array.from(new Set(s))`). */
  function Distinct<T(==)>(s: seq<T>): (r: seq<T>)
  {
    DistinctBy(s, Identity, {})
  }

  /** The deduplicated sequence holds every element of `s` exactly once, and nothing else. */
  lemma DistinctExactlyOnce<T>(s: seq<T>)
    ensures NoDuplicates(Distinct(s))
    ensures forall x :: x in Distinct(s) <==> x in s
  {
    var r := Distinct(s);
    DistinctByKeepsFirsts(s, Identity, {});
    DistinctByKeepsEveryKey(s, Identity, {});
    DistinctByKeysUnique(s, Identity, {});
    forall x | x in s ensures x in r {
      assert HasKey(r, Identity, x);
    }
  }

  /** `s` with `x` appended at the end, unless `x` is already present. */
  function AppendIfAbsent<T(==)>(s: seq<T>, x: T): (r: seq<T>)
    ensures x in r
    ensures forall y :: y in r ==> y in s || y == x
    ensures forall y :: y in s ==> y in r
    ensures x in s ==> r == s
    ensures x !in s ==> |r| == |s| + 1 && r[..|s|] == s && r[|s|] == x
  {
    if x in s then s else s + [x]
  }

  /** Appending only when absent never introduces a duplicate. */
  lemma AppendIfAbsentNoDuplicates<T>(s: seq<T>, x: T)
    requires NoDuplicates(s)
    ensures NoDuplicates(AppendIfAbsent(s, x))
  {
    var r := AppendIfAbsent(s, x);
    if x !in s {
      forall i, j | 0 <= i < j < |r|
        ensures r[i] != r[j]
      {
        if j == |s| {
          assert r[i] == s[i];
        }
      }
    }
  }
}

=== FILE: services.dfy ===
/** Response assembly (app/services.py): the clamp on the rerank index, the list
    response (deduplication by name, decoding of JSON-encoded fields, step
    numbering, step images, rule-based comment) and the follow-up consultation with
    its bounded history. */
module Services {
  import opened Wrappers
  import opened Text
  import opened Sequences
  import opened Recipes
  import opened Llm
  import Retriever
  import Generator

  /** The clamp of `get_recipe_response` (app/services.py:29-30). */
  function ClampIndex(index: int, count: nat): (r: int)
    ensures 0 <= index < count ==> r == index
    ensures !(0 <= index < count) ==> r == 0
    ensures count > 0 ==> 0 <= r < count
  {
    if index < 0 || index >= count then 0 else index
  }

  /** The AI choice of `get_recipe_response`, corrected and applied
      (app/services.py:26-33).  Line 33 indexes the candidate list even when it is
      empty, which raises, so the list must be non-empty. */
  method ChooseBestMatch(client: Client, query: string, cands: seq<Record>)
    returns (best: Record, message: string)
    requires |cands| > 0
    ensures
      var sel := Generator.Select(client, query, cands);
      best == cands[ClampIndex(sel.index, |cands|)] && message == sel.reason
  {
    var index, reason := Generator.SmartSelectAndComment(client, query, cands);
    if index < 0 || index >= |cands| {
      index := 0;
    }
    best, message := cands[index], reason;
  }

  /** Whatever the model replies, the corrected choice names a candidate, and an
      in-range choice is kept. */
  lemma CorrectedChoiceValid(client: Client, query: string, cands: seq<Record>)
    requires |cands| > 0
    ensures 0 <= ClampIndex(Generator.Select(client, query, cands).index, |cands|) < |cands|
    ensures Generator.Select(client, query, cands).index < |cands| ==>
      ClampIndex(Generator.Select(client, query, cands).index, |cands|) == Generator.Select(client, query, cands).index
  {
  }

  /** With two candidates, the reply `2 ||| try this` selects index 2, which the
      clamp corrects to 0; the reason is still "try this". */
  lemma OutOfRangeReplyCorrected(client: Client, query: string, cands: seq<Record>)
    requires |cands| == 2 && client.Connected?
    requires client.invoke(SelectRequest(query, Generator.Listing(cands))) == Answered(Plain("2 ||| try this"))
    ensures Generator.Select(client, query, cands) == Generator.Selection(2, "try this")
    ensures ClampIndex(Generator.Select(client, query, cands).index, |cands|) == 0
  {
    var text := "2 ||| try this";
    assert Generator.Select(client, query, cands) == Generator.ParseSelection(Generator.SelectionText(Plain(text)), cands);
    UnpaddedReplyText(text);
    ReplyTwoParsed(cands);
  }

  lemma UnpaddedReplyText(text: string)
    requires text == "2 ||| try this"
    ensures Generator.SelectionText(Plain(text)) == text
  {
    Generator.SelectionTextIsStrippedUnwrap(Plain(text));
    assert Generator.Unwrap(Plain(text)) == text;
    StrippedReply();
  }

  /** The out-of-range reply `2 ||| try this` has no surrounding whitespace. */
  lemma StrippedReply()
    ensures PyStrip("2 ||| try this") == "2 ||| try this"
  {
    var s := "2 ||| try this";
    assert |s| == 14 && s[0] == '2' && s[13] == 's';
    assert !IsPySpace('2') && !IsPySpace('s');
    TrimUnpadded(s, IsPySpace);
  }

  lemma ReplyTwoParsed(cands: seq<Record>)
    requires |cands| > 0
    ensures Generator.ParseSelection("2 ||| try this", cands) == Generator.Selection(2, "try this")
  {
    assert Decimal(2) == "2";
    assert "2 ||| try this" == Decimal(2) + " ||| " + "try this";
    Generator.WellFormedReplyParsed(2, "try this", cands);
    StrippedReason();
  }

  lemma StrippedReason()
    ensures PyStrip("try this") == "try this"
  {
    TrimUnpadded("try this", IsPySpace);
  }

  /** A string field is JSON-decoded (`loads`), a decode failure gives `[]`, and an
      already decoded list is kept (app/services.py:68-71). */
  function DecodeSteps(ins: Instructions, loads: string -> Option<seq<RawStep>>): (r: seq<RawStep>)
    ensures ins.StepList? ==> r == ins.steps
    ensures ins.StepsText? && loads(ins.text).None? ==> r == []
    ensures ins.StepsText? && loads(ins.text).Some? ==> r == loads(ins.text).value
  {
    match ins
    case StepList(steps) => steps
    case StepsText(t) => loads(t).GetOr([])
  }

  /** The same for tags (app/services.py:74-77). */
  function DecodeTags(tags: Tags, loads: string -> Option<Tags>): (r: Tags)
    ensures tags.TagList? ==> r == tags
    ensures tags.TagText? && loads(tags.text).None? ==> r == TagList([])
    ensures tags.TagText? && loads(tags.text).Some? ==> r == loads(tags.text).value
  {
    match tags
    case TagList(_) => tags
    case TagText(t) => loads(t).GetOr(TagList([]))
  }

  /** A link is usable unless it is missing, empty or the literal `"null"`. */
  predicate UsableLink(link: Option<string>)
  {
    link.Some? && link.value != "" && link.value != "null"
  }

  /** The step image (app/services.py:83-86): `image_url` when non-empty, else
      `imgLink`; an empty or `"null"` result means no image. */
  function ResolveImage(step: RawStep): (r: Option<string>)
    ensures r.Some? ==> UsableLink(r)
    ensures UsableLink(step.imageUrl) ==> r == step.imageUrl
    ensures step.imageUrl.Some? && step.imageUrl.value == "null" ==> r.None?
    ensures (step.imageUrl.None? || step.imageUrl.value == "") ==>
      r == if UsableLink(step.imgLink) then step.imgLink else None
  {
    var link := if step.imageUrl.Some? && step.imageUrl.value != "" then step.imageUrl else step.imgLink;
    if UsableLink(link) then link else None
  }

  function FormatStep(i: nat, step: RawStep): Step
  {
    Step(i + 1, step.description.GetOr(""), ResolveImage(step))
  }

  /** One formatted step per raw step, in order, numbered 1, 2, ..., n. */
  function FormattedSteps(raw: seq<RawStep>): (r: seq<Step>)
    ensures |r| == |raw|
    ensures |r| > 0 ==> r[0].stepIndex == 1
    ensures forall i :: 0 < i < |r| ==> r[i].stepIndex == r[i - 1].stepIndex + 1
    ensures forall i :: 0 <= i < |r| ==> r[i].description == raw[i].description.GetOr("")
    ensures forall i :: 0 <= i < |r| ==> r[i].imageUrl == ResolveImage(raw[i])
  {
    seq(|raw|, i requires 0 <= i < |raw| => FormatStep(i, raw[i]))
  }

  /** The `formatted_steps.append` loop (app/services.py:80-94). */
  method FormatSteps(raw: seq<RawStep>) returns (steps: seq<Step>)
    ensures steps == FormattedSteps(raw)
  {
    steps := [];
    var idx := 0;
    while idx < |raw|
      invariant 0 <= idx <= |raw|
      invariant steps == FormattedSteps(raw[..idx])
    {
      steps := steps + [FormatStep(idx, raw[idx])];
      idx := idx + 1;
    }
    assert raw[..idx] == raw;
  }

  /** Python's `int(x)` on a float: truncation toward zero. */
  function Truncate(x: real): (r: int)
    ensures x >= 0.0 ==> r as real <= x < r as real + 1.0
    ensures x < 0.0 ==> r as real - 1.0 < x <= r as real
  {
    if x >= 0.0 then x.Floor else -((-x).Floor)
  }

  const SpicyMarker: string := "辣"
  const SoupMarker: string := "汤"
  const SpicyAdvice: string := " 注意：这道菜口味偏辣，可以适当减少辣椒用量。"
  const SoupAdvice: string := " 这是一个很棒的汤品选择，暖胃又健康。"

  /** The base sentence with the match figure `int(score * 100)`. */
  function MatchSentence(score: real): string
  {
    "基于您的食材，AI 认为这道菜匹配度高达 " + IntToString(Truncate(score * 100.0)) + "%。"
  }

  /** The rule-based comment (app/services.py:99-103). */
  function Comment(score: real, tags: Tags): (r: string)
    ensures StartsWith(r, MatchSentence(score))
    ensures
      var advice := r[|MatchSentence(score)|..];
      advice == SpicyAdvice || advice == SoupAdvice || advice == ""
  {
    var shown := ShowTags(tags);
    MatchSentence(score)
    + if Contains(shown, SpicyMarker) then SpicyAdvice
      else if Contains(shown, SoupMarker) then SoupAdvice
      else ""
  }

  /** The comment is the base sentence followed by exactly one of: the spice advisory
      when `str(tags)` mentions 辣, the soup advisory when it mentions 汤 but not 辣,
      nothing otherwise. */
  lemma CommentRule(score: real, tags: Tags)
    ensures StartsWith(Comment(score, tags), MatchSentence(score))
    ensures
      var advice := Comment(score, tags)[|MatchSentence(score)|..];
      && (advice == SpicyAdvice <==> Contains(ShowTags(tags), SpicyMarker))
      && (advice == SoupAdvice <==> !Contains(ShowTags(tags), SpicyMarker) && Contains(ShowTags(tags), SoupMarker))
      && (advice == "" <==> !Contains(ShowTags(tags), SpicyMarker) && !Contains(ShowTags(tags), SoupMarker))
  {
    var base := MatchSentence(score);
    var c := Comment(score, tags);
    assert c[..|base|] == base;
    assert SpicyAdvice != SoupAdvice by {
      assert SpicyAdvice[1] != SoupAdvice[1];
    }
  }

  /** One entry of the list response. */
  function FormatRecipe(rec: Record, loadsSteps: string -> Option<seq<RawStep>>, loadsTags: string -> Option<Tags>): (r: Recipe)
    ensures r.recipeId == rec.id && r.recipeName == rec.name && r.coverImage == rec.image
  {
    var tags := DecodeTags(rec.tags, loadsTags);
    Recipe(rec.id, rec.name, tags, rec.image, FormattedSteps(DecodeSteps(rec.instructions, loadsSteps)), Comment(rec.score, tags))
  }

  /** An entry's tags and steps are the candidate's decoded fields, the steps
      formatted, and its message is the comment on the candidate's score and
      decoded tags. */
  lemma FormatRecipeFields(rec: Record, loadsSteps: string -> Option<seq<RawStep>>, loadsTags: string -> Option<Tags>)
    ensures var r := FormatRecipe(rec, loadsSteps, loadsTags);
      && r.tags == DecodeTags(rec.tags, loadsTags)
      && r.steps == FormattedSteps(DecodeSteps(rec.instructions, loadsSteps))
      && r.message == Comment(rec.score, r.tags)
  {
  }

  function FormatAll(recs: seq<Record>, loadsSteps: string -> Option<seq<RawStep>>, loadsTags: string -> Option<Tags>): (r: seq<Recipe>)
    ensures |r| == |recs|
    ensures forall i :: 0 <= i < |recs| ==> r[i] == FormatRecipe(recs[i], loadsSteps, loadsTags)
  {
    seq(|recs|, i requires 0 <= i < |recs| => FormatRecipe(recs[i], loadsSteps, loadsTags))
  }

  function NameOf(rec: Record): string
  {
    rec.name
  }

  /** The candidates that survive the seen-names pass: the first of each name. */
  function Deduplicated(cands: seq<Record>): (r: seq<Record>)
    ensures |r| <= |cands|
    ensures |cands| > 0 ==> |r| > 0 && r[0] == cands[0]
  {
    DistinctBy(cands, NameOf, {})
  }

  datatype RecipeList = RecipeList(candidates: seq<Recipe>, aiMessage: string)

  /** What `get_recipe_list_response` returns: nothing when retrieval (threshold 1.0,
      no preferences) finds no candidate; otherwise the deduplicated, formatted
      candidates and the narrative written over ALL retrieved candidates. */
  function ListResponse(
    store: Option<seq<Retriever.Hit>>, client: Client, literalEval: string -> Option<Value>,
    loadsSteps: string -> Option<seq<RawStep>>, loadsTags: string -> Option<Tags>, query: string): (r: Option<RecipeList>)
    ensures r.None? <==> Retriever.Retrieved(store, 1.0, None) == []
    ensures r.Some? ==> 0 < |r.value.candidates| <= |Retriever.Retrieved(store, 1.0, None)|
    ensures r.Some? ==> r.value.aiMessage == Generator.Narrative(client, literalEval, query, Retriever.Retrieved(store, 1.0, None))
  {
    var cands := Retriever.Retrieved(store, 1.0, None);
    if |cands| == 0 then None
    else
      Some(RecipeList(
        FormatAll(Deduplicated(cands), loadsSteps, loadsTags),
        Generator.Narrative(client, literalEval, query, cands)))
  }

  /** `get_recipe_list_response` (app/services.py:45-123). */
  method GetRecipeListResponse(
    store: Option<seq<Retriever.Hit>>, client: Client, literalEval: string -> Option<Value>,
    loadsSteps: string -> Option<seq<RawStep>>, loadsTags: string -> Option<Tags>, query: string)
    returns (resp: Option<RecipeList>)
    ensures resp == ListResponse(store, client, literalEval, loadsSteps, loadsTags, query)
  {
    var cands := Retriever.RetrieveDocs(store, 1.0, None);
    if |cands| == 0 {
      return None;
    }
    var formatted := FormatDeduplicated(cands, loadsSteps, loadsTags);
    var summary := Generator.GenerateRagAnswer(client, literalEval, query, cands);
    resp := Some(RecipeList(formatted, summary));
  }

  /** The body of the `seen_names` loop for a candidate not seen before
      (app/services.py:67-114): decode, format the steps, write the comment. */
  method FormatEntry(doc: Record, loadsSteps: string -> Option<seq<RawStep>>, loadsTags: string -> Option<Tags>)
    returns (entry: Recipe)
    ensures entry == FormatRecipe(doc, loadsSteps, loadsTags)
  {
    var rawSteps := DecodeSteps(doc.instructions, loadsSteps);
    var tags := DecodeTags(doc.tags, loadsTags);
    var steps := FormatSteps(rawSteps);
    var comment := Comment(doc.score, tags);
    entry := Recipe(doc.id, doc.name, tags, doc.image, steps, comment);
  }

  /** The `seen_names` loop of `get_recipe_list_response` (app/services.py:57-106):
      skip a candidate whose name was already seen, format the others. */
  method FormatDeduplicated(cands: seq<Record>, loadsSteps: string -> Option<seq<RawStep>>, loadsTags: string -> Option<Tags>)
    returns (formatted: seq<Recipe>)
    ensures formatted == FormatAll(Deduplicated(cands), loadsSteps, loadsTags)
  {
    formatted := [];
    var seenNames: set<string> := {};
    ghost var kept: seq<Record> := [];
    var i := 0;
    while i < |cands|
      invariant 0 <= i <= |cands|
      invariant kept + DistinctBy(cands[i..], NameOf, seenNames) == DistinctBy(cands, NameOf, {})
      invariant formatted == FormatAll(kept, loadsSteps, loadsTags)
    {
      var doc := cands[i];
      DistinctByStep(cands, i, NameOf, seenNames);
      assert NameOf(doc) == doc.name;
      if doc.name in seenNames {
        i := i + 1;
        continue;
      }
      ghost var rest := DistinctBy(cands[i + 1..], NameOf, seenNames + {doc.name});
      assert kept + ([doc] + rest) == (kept + [doc]) + rest;
      seenNames := seenNames + {doc.name};
      var entry := FormatEntry(doc, loadsSteps, loadsTags);
      FormatAllSnoc(kept, doc, loadsSteps, loadsTags);
      formatted := formatted + [entry];
      kept := kept + [doc];
      i := i + 1;
    }
    assert cands[i..] == [];
  }

  lemma FormatAllSnoc(recs: seq<Record>, rec: Record, loadsSteps: string -> Option<seq<RawStep>>, loadsTags: string -> Option<Tags>)
    ensures FormatAll(recs + [rec], loadsSteps, loadsTags) == FormatAll(recs, loadsSteps, loadsTags) + [FormatRecipe(rec, loadsSteps, loadsTags)]
  {
  }

  /** Deduplication keeps one record per name: no two survivors share a name,
      each survivor is the first candidate carrying its name, every candidate name
      survives, and the survivors keep the order of the candidates. */
  lemma DeduplicatedFirstPerName(cands: seq<Record>)
    ensures
      var kept := Deduplicated(cands);
      && (forall i, j :: 0 <= i < j < |kept| ==> kept[i].name != kept[j].name)
      && (forall i :: 0 <= i < |kept| ==> exists j ::
            && 0 <= j < |cands| && kept[i] == cands[j]
            && forall k :: 0 <= k < j ==> cands[k].name != cands[j].name)
      && (forall j :: 0 <= j < |cands| ==> exists i :: 0 <= i < |kept| && kept[i].name == cands[j].name)
      && IsSubsequence(kept, cands)
  {
    DeduplicatedNamesUnique(cands);
    DeduplicatedKeepsFirsts(cands);
    DeduplicatedKeepsEveryName(cands);
    DistinctByIsSubsequence(cands, NameOf, {});
  }

  lemma DeduplicatedNamesUnique(cands: seq<Record>)
    ensures
      var kept := Deduplicated(cands);
      forall i, j :: 0 <= i < j < |kept| ==> kept[i].name != kept[j].name
  {
    var kept := Deduplicated(cands);
    DistinctByKeysUnique(cands, NameOf, {});
    forall i, j | 0 <= i < j < |kept|
      ensures kept[i].name != kept[j].name
    {
      assert NameOf(kept[i]) != NameOf(kept[j]);
    }
  }

  lemma DeduplicatedKeepsFirsts(cands: seq<Record>)
    ensures
      var kept := Deduplicated(cands);
      forall i :: 0 <= i < |kept| ==> exists j ::
        && 0 <= j < |cands| && kept[i] == cands[j]
        && forall k :: 0 <= k < j ==> cands[k].name != cands[j].name
  {
    var kept := Deduplicated(cands);
    DistinctByKeepsFirsts(cands, NameOf, {});
    forall i | 0 <= i < |kept|
      ensures exists j ::
        && 0 <= j < |cands| && kept[i] == cands[j]
        && forall k :: 0 <= k < j ==> cands[k].name != cands[j].name
    {
      var j := FirstIndex(cands, NameOf, kept[i]);
      assert kept[i] == cands[j];
      forall k | 0 <= k < j
        ensures cands[k].name != cands[j].name
      {
        assert NameOf(cands[k]) != NameOf(kept[i]);
      }
    }
  }

  lemma DeduplicatedKeepsEveryName(cands: seq<Record>)
    ensures
      var kept := Deduplicated(cands);
      forall j :: 0 <= j < |cands| ==> exists i :: 0 <= i < |kept| && kept[i].name == cands[j].name
  {
    var kept := Deduplicated(cands);
    DistinctByKeepsEveryKey(cands, NameOf, {});
    forall j | 0 <= j < |cands|
      ensures exists i :: 0 <= i < |kept| && kept[i].name == cands[j].name
    {
      assert cands[j] in cands;
      assert HasKey(kept, NameOf, NameOf(cands[j]));
      var i :| 0 <= i < |kept| && NameOf(kept[i]) == NameOf(cands[j]);
      assert kept[i].name == cands[j].name;
    }
  }

  /** Formatting keeps the subsequence relation. */
  lemma FormatAllSubsequence(a: seq<Record>, b: seq<Record>, loadsSteps: string -> Option<seq<RawStep>>, loadsTags: string -> Option<Tags>)
    requires IsSubsequence(a, b)
    ensures IsSubsequence(FormatAll(a, loadsSteps, loadsTags), FormatAll(b, loadsSteps, loadsTags))
  {
    var idx: seq<nat> :| Embeds(idx, a, b);
    assert Embeds(idx, FormatAll(a, loadsSteps, loadsTags), FormatAll(b, loadsSteps, loadsTags));
  }

  /** Formatting the deduplicated candidates names each candidate name once, and the
      entries follow the candidates' order. */
  lemma FormattedDeduplicated(cands: seq<Record>, loadsSteps: string -> Option<seq<RawStep>>, loadsTags: string -> Option<Tags>)
    ensures
      var out := FormatAll(Deduplicated(cands), loadsSteps, loadsTags);
      && (forall i, j :: 0 <= i < j < |out| ==> out[i].recipeName != out[j].recipeName)
      && (forall j :: 0 <= j < |cands| ==> exists i :: 0 <= i < |out| && out[i].recipeName == cands[j].name)
      && IsSubsequence(out, FormatAll(cands, loadsSteps, loadsTags))
  {
    FormattedNamesUnique(cands, loadsSteps, loadsTags);
    FormattedKeepsEveryName(cands, loadsSteps, loadsTags);
    DistinctByIsSubsequence(cands, NameOf, {});
    FormatAllSubsequence(Deduplicated(cands), cands, loadsSteps, loadsTags);
  }

  /** The formatted survivors carry pairwise distinct names. */
  lemma FormattedNamesUnique(cands: seq<Record>, loadsSteps: string -> Option<seq<RawStep>>, loadsTags: string -> Option<Tags>)
    ensures
      var out := FormatAll(Deduplicated(cands), loadsSteps, loadsTags);
      forall i, j :: 0 <= i < j < |out| ==> out[i].recipeName != out[j].recipeName
  {
    DeduplicatedNamesUnique(cands);
  }

  /** Every candidate name is carried by some formatted survivor. */
  lemma FormattedKeepsEveryName(cands: seq<Record>, loadsSteps: string -> Option<seq<RawStep>>, loadsTags: string -> Option<Tags>)
    ensures
      var out := FormatAll(Deduplicated(cands), loadsSteps, loadsTags);
      forall j :: 0 <= j < |cands| ==> exists i :: 0 <= i < |out| && out[i].recipeName == cands[j].name
  {
    var kept := Deduplicated(cands);
    var out := FormatAll(kept, loadsSteps, loadsTags);
    DeduplicatedKeepsEveryName(cands);
    forall j | 0 <= j < |cands|
      ensures exists i :: 0 <= i < |out| && out[i].recipeName == cands[j].name
    {
      var i :| 0 <= i < |kept| && kept[i].name == cands[j].name;
      assert out[i].recipeName == cands[j].name;
    }
  }

  /** A list response names each retrieved recipe once: its entries are the
      formatted first candidates of each name, every candidate name appears, and the
      entries follow the candidates' order. */
  lemma ListResponseDeduplicated(
    store: Option<seq<Retriever.Hit>>, client: Client, literalEval: string -> Option<Value>,
    loadsSteps: string -> Option<seq<RawStep>>, loadsTags: string -> Option<Tags>, query: string)
    ensures
      var cands := Retriever.Retrieved(store, 1.0, None);
      var resp := ListResponse(store, client, literalEval, loadsSteps, loadsTags, query);
      var out := if resp.Some? then resp.value.candidates else [];
      resp.Some? ==>
      && out == FormatAll(Deduplicated(cands), loadsSteps, loadsTags)
      && (forall i, j :: 0 <= i < j < |out| ==> out[i].recipeName != out[j].recipeName)
      && (forall j :: 0 <= j < |cands| ==> exists i :: 0 <= i < |out| && out[i].recipeName == cands[j].name)
      && IsSubsequence(out, FormatAll(cands, loadsSteps, loadsTags))
  {
    var cands := Retriever.Retrieved(store, 1.0, None);
    var resp := ListResponse(store, client, literalEval, loadsSteps, loadsTags, query);
    if resp.Some? {
      assert resp.value.candidates == FormatAll(Deduplicated(cands), loadsSteps, loadsTags);
      FormattedDeduplicated(cands, loadsSteps, loadsTags);
    }
  }

  /** Two candidates both named "Tomato Soup" leave exactly one entry. */
  lemma TomatoSoupKeptOnce(a: Record, b: Record)
    requires a.name == "Tomato Soup" && b.name == "Tomato Soup"
    ensures Deduplicated([a, b]) == [a]
  {
    var s := [a, b];
    assert s[1..] == [b] && [b][1..] == [];
    assert NameOf(b) in {} + {NameOf(a)};
    assert DistinctBy([b], NameOf, {} + {NameOf(a)}) == [];
    assert DistinctBy(s, NameOf, {}) == [a] + DistinctBy([b], NameOf, {} + {NameOf(a)});
  }

  const ConsultNoClient: string := "👨‍🍳 抱歉，AI 厨师目前无法连接大脑 (API Key Missing)。"
  const ConsultBusy: string := "👨‍🍳 抱歉，厨房太忙了，请稍后再试。"
  const HistoryWindow: nat := 4

  /** One turn of the conversation history. */
  datatype Turn = Turn(role: string, content: string)

  /** `history[-4:]`: the last min(4, n) turns, in order. */
  function RecentTurns(history: seq<Turn>): (w: seq<Turn>)
    ensures |w| == if |history| < HistoryWindow then |history| else HistoryWindow
    ensures history == history[..|history| - |w|] + w
  {
    if |history| <= HistoryWindow then history else history[|history| - HistoryWindow..]
  }

  /** The `role: content` line of one turn. */
  function TurnLine(t: Turn): string
  {
    t.role + ": " + t.content
  }

  /** The lines of the recent turns, joined by newlines. */
  function HistoryText(history: seq<Turn>): (r: string)
    ensures |history| == 0 ==> r == ""
    ensures |history| > 0 ==>
              var line := TurnLine(history[|history| - |RecentTurns(history)|]);
              |line| <= |r| && r[..|line|] == line
    ensures |history| > 0 ==>
              var line := TurnLine(history[|history| - 1]);
              |line| <= |r| && r[|r| - |line|..] == line
  {
    var w := RecentTurns(history);
    var lines := TurnLines(w);
    if |history| == 0 then ""
    else
      RecentTurnsEnds(history);
      JoinEnds("\n", lines);
      var r := Join("\n", lines);
      assert lines[0] == TurnLine(w[0]) && w[0] == history[|history| - |w|];
      assert lines[|w| - 1] == TurnLine(w[|w| - 1]) && w[|w| - 1] == history[|history| - 1];
      r
  }

  function TurnLines(w: seq<Turn>): (lines: seq<string>)
    ensures |lines| == |w|
    ensures forall i :: 0 <= i < |w| ==> lines[i] == TurnLine(w[i])
  {
    seq(|w|, i requires 0 <= i < |w| => TurnLine(w[i]))
  }

  /** The window of a non-empty history starts at its `|w|`-th last turn and ends
      with its last turn. */
  lemma RecentTurnsEnds(history: seq<Turn>)
    requires |history| > 0
    ensures
      var w := RecentTurns(history);
      && |w| > 0
      && w[0] == history[|history| - |w|]
      && w[|w| - 1] == history[|history| - 1]
  {
  }

  /** A one-turn history is that turn's line. */
  lemma HistoryTextSingle(t: Turn)
    ensures HistoryText([t]) == TurnLine(t)
  {
    assert TurnLines([t]) == [TurnLine(t)];
  }

  /** Within the window, the history text of two runs of turns is the first's text,
      a newline and the second's: with `HistoryTextSingle` and `HistoryTextWindow`,
      every recent turn's line appears in order, one per line. */
  lemma HistoryTextAppend(a: seq<Turn>, b: seq<Turn>)
    requires |a| > 0 && |b| > 0 && |a| + |b| <= HistoryWindow
    ensures HistoryText(a + b) == HistoryText(a) + "\n" + HistoryText(b)
  {
    var la, lb := TurnLines(a), TurnLines(b);
    assert TurnLines(a + b) == la + lb;
    HistoryTextShort(a + b);
    HistoryTextShort(a);
    HistoryTextShort(b);
    JoinAppend("\n", la, lb);
  }

  lemma HistoryTextShort(history: seq<Turn>)
    requires |history| <= HistoryWindow
    ensures HistoryText(history) == Join("\n", TurnLines(history))
  {
    assert RecentTurns(history) == history;
  }

  /** Only the last four turns are written: the text of a history is the text of
      its window. */
  lemma HistoryTextWindow(history: seq<Turn>)
    ensures HistoryText(history) == HistoryText(RecentTurns(history))
  {
  }

  /** What `consult_chef` returns (app/services.py:125-167).  A reply whose content
      is not a string makes `.strip()` raise, which the handler turns into the busy
      apology like any other error. */
  function ConsultReply(client: Client, query: string, context: string, history: seq<Turn>): (r: string)
    ensures client.NoClient? ==> r == ConsultNoClient
    ensures client.Connected? && client.invoke(ConsultRequest(query, context, HistoryText(history))).Raised?
      ==> r == ConsultBusy
    ensures
      var reply := if client.Connected? then client.invoke(ConsultRequest(query, context, HistoryText(history))) else Raised;
      && (reply.Answered? && reply.content.Plain? ==> r == PyStrip(reply.content.text))
      && (reply.Answered? && !reply.content.Plain? ==> r == ConsultBusy)
  {
    if client.NoClient? then ConsultNoClient
    else
      match client.invoke(ConsultRequest(query, context, HistoryText(history)))
      case Raised => ConsultBusy
      case Answered(Plain(t)) => PyStrip(t)
      case Answered(_) => ConsultBusy
  }

  /** Turns older than the last four never influence the reply. */
  lemma ConsultIgnoresOlderTurns(client: Client, query: string, context: string, older: seq<Turn>, recent: seq<Turn>)
    requires |recent| >= HistoryWindow
    ensures ConsultReply(client, query, context, older + recent) == ConsultReply(client, query, context, recent)
  {
    var h := older + recent;
    assert h[|h| - HistoryWindow..] == recent[|recent| - HistoryWindow..];
    assert HistoryText(h) == HistoryText(recent);
  }

  /** The two apologies are distinct, so a caller can tell a missing key from a
      failed call. */
  lemma ConsultApologiesDistinct()
    ensures ConsultNoClient != ConsultBusy
  {
    assert ConsultNoClient[9] != ConsultBusy[9];
  }
}

=== FILE: storage.dfy ===
/** The browser's `localStorage`, reduced to the four keys the pages use and held
    already decoded: `aichef_favorites`, `aichef_saved_recipes`,
    `aichef_saved_users` and `aichef_username`. */
module Storage {
  import opened Wrappers
  import opened Recipes

  /** What `aichef_saved_users` holds: nothing (or the empty string), a value that
      `JSON.parse` or the spread rejects, or a list of names. */
  datatype SavedUsers = NothingStored | Unparsable | Names(names: seq<string>)

  class Store {
    /** `aichef_favorites`; an absent key reads as `[]`. */
    var favorites: seq<string>
    /** `aichef_saved_recipes`; an absent key reads as `{}`. */
    var savedRecipes: map<string, Recipe>
    var savedUsers: SavedUsers
    /** `aichef_username`; `None` when the key is absent. */
    var username: Option<string>

    /** A fresh browser profile: every key absent. */
    constructor ()
      ensures favorites == [] && savedRecipes == map[]
      ensures savedUsers == NothingStored && username == None
    {
      favorites := [];
      savedRecipes := map[];
      savedUsers := NothingStored;
      username := None;
    }
  }
}

=== FILE: text.dfy ===
/** String primitives of the two runtimes the system uses: Python's `str.strip`,
    `str.lower`, `in`, `str.split(sep, 1)`, `re.search(r'\d+')`, `int(...)` and
    `str(int)`, and JavaScript's `String.prototype.trim`.  Strings are sequences of
    Unicode code points, as in both runtimes. */
module Text {
  import opened Wrappers

  /** The characters for which Python's `str.isspace()` holds; `str.strip()` removes them. */
  predicate IsPySpace(c: char)
  {
    || ('\t' <= c <= '\r')
    || ('\U{1C}' <= c <= '\U{1F}')
    || c == ' ' || c == '\U{85}' || c == '\U{A0}' || c == '\U{1680}'
    || ('\U{2000}' <= c <= '\U{200A}')
    || c == '\U{2028}' || c == '\U{2029}' || c == '\U{202F}' || c == '\U{205F}' || c == '\U{3000}'
  }

  /** The white space and line terminators that JavaScript's `trim()` removes. */
  predicate IsJsSpace(c: char)
  {
    || ('\t' <= c <= '\r')
    || c == ' ' || c == '\U{A0}' || c == '\U{1680}'
    || ('\U{2000}' <= c <= '\U{200A}')
    || c == '\U{2028}' || c == '\U{2029}' || c == '\U{202F}' || c == '\U{205F}' || c == '\U{3000}'
    || c == '\U{FEFF}'
  }

  /** The number of leading characters of `s` in the class `ws`. */
  function LeadingCount(s: string, ws: char -> bool): (n: nat)
    ensures n <= |s|
    ensures forall i :: 0 <= i < n ==> ws(s[i])
    ensures n < |s| ==> !ws(s[n])
  {
    if |s| > 0 && ws(s[0]) then 1 + LeadingCount(s[1..], ws) else 0
  }

  /** The number of trailing characters of `s` in the class `ws`. */
  function TrailingCount(s: string, ws: char -> bool): (n: nat)
    ensures n <= |s|
    ensures forall i :: |s| - n <= i < |s| ==> ws(s[i])
    ensures n < |s| ==> !ws(s[|s| - n - 1])
  {
    if |s| > 0 && ws(s[|s| - 1]) then 1 + TrailingCount(s[..|s| - 1], ws) else 0
  }

  /** `s` without its leading and trailing characters of class `ws`: what is left is a
      slice of `s` cut only at runs of `ws`, and it neither starts nor ends with one. */
  function Trim(s: string, ws: char -> bool): (r: string)
    ensures exists i, j ::
              && 0 <= i <= j <= |s| && r == s[i..j]
              && (forall k :: 0 <= k < i ==> ws(s[k]))
              && (forall k :: j <= k < |s| ==> ws(s[k]))
    ensures r == [] || (!ws(r[0]) && !ws(r[|r| - 1]))
  {
    var i := LeadingCount(s, ws);
    var rest := s[i..];
    var j := i + |rest| - TrailingCount(rest, ws);
    assert rest[..|rest| - TrailingCount(rest, ws)] == s[i..j];
    s[i..j]
  }

  /** Trimming twice is trimming once. */
  lemma TrimIdempotent(s: string, ws: char -> bool)
    ensures Trim(Trim(s, ws), ws) == Trim(s, ws)
  {
    TrimUnpadded(Trim(s, ws), ws);
  }

  /** A string that neither starts nor ends with a character of class `ws` is its
      own trim. */
  lemma TrimUnpadded(s: string, ws: char -> bool)
    requires s == [] || (!ws(s[0]) && !ws(s[|s| - 1]))
    ensures Trim(s, ws) == s
  {
    assert LeadingCount(s, ws) == 0;
    assert TrailingCount(s, ws) == 0;
    assert s[0..|s|] == s;
  }

  /** A string made only of characters of class `ws` trims to the empty string,
      and only such strings do. */
  lemma TrimEmptyIffAllSpace(s: string, ws: char -> bool)
    ensures Trim(s, ws) == [] <==> forall k :: 0 <= k < |s| ==> ws(s[k])
  {
    if forall k :: 0 <= k < |s| ==> ws(s[k]) {
      assert LeadingCount(s, ws) == |s|;
    }
  }

  /** A leading character of class `ws` makes no difference to the trimmed result. */
  lemma TrimDropsLeadingSpace(c: char, s: string, ws: char -> bool)
    requires ws(c)
    ensures Trim([c] + s, ws) == Trim(s, ws)
  {
    var t := [c] + s;
    assert t[1..] == s;
    assert LeadingCount(t, ws) == 1 + LeadingCount(s, ws);
    assert t[LeadingCount(t, ws)..] == s[LeadingCount(s, ws)..];
    TrimOfRest(t, ws);
    TrimOfRest(s, ws);
  }

  /** Trimming is dropping the trailing run from what follows the leading run. */
  lemma TrimOfRest(s: string, ws: char -> bool)
    ensures
      var rest := s[LeadingCount(s, ws)..];
      Trim(s, ws) == rest[..|rest| - TrailingCount(rest, ws)]
  {
  }

  /** A prefix of `b` is a prefix of anything `b` starts. */
  lemma PrefixOfAppend<T>(a: seq<T>, b: seq<T>, c: seq<T>)
    requires a <= b
    ensures a <= b + c
  {
    assert (b + c)[..|b|] == b;
  }

  /** Python's `s.strip()`. */
  function PyStrip(s: string): string
  {
    Trim(s, IsPySpace)
  }

  /** JavaScript's `s.trim()`. */
  function JsTrim(s: string): string
  {
    Trim(s, IsJsSpace)
  }

  /** Lower-casing of one character; only ASCII letters change. */
  function LowerChar(c: char): char
  {
    if 'A' <= c <= 'Z' then (c as int + 32) as char else c
  }

  /** `s.lower()` on the ASCII letters of `s`. */
  function Lower(s: string): (r: string)
    ensures |r| == |s|
  {
    seq(|s|, i requires 0 <= i < |s| => LowerChar(s[i]))
  }

  /** Lower-casing leaves no upper-case ASCII letter, maps each upper-case ASCII
      letter to its lower-case letter, and keeps every other character. */
  lemma LowerSpec(s: string)
    ensures forall i :: 0 <= i < |s| ==> !('A' <= Lower(s)[i] <= 'Z')
    ensures forall i :: 0 <= i < |s| && 'A' <= s[i] <= 'Z' ==> Lower(s)[i] as int == s[i] as int + 32
    ensures forall i :: 0 <= i < |s| && !('A' <= s[i] <= 'Z') ==> Lower(s)[i] == s[i]
  {
  }

  lemma LowerAppend(a: string, b: string)
    ensures Lower(a + b) == Lower(a) + Lower(b)
  {
  }

  /** `w` occurs in `s` starting at position `i`. */
  predicate OccursAt(s: string, w: string, i: nat)
  {
    i + |w| <= |s| && s[i..i + |w|] == w
  }

  function IndexFrom(s: string, w: string, from: nat): (r: Option<nat>)
    requires from <= |s|
    ensures r.Some? ==>
              && from <= r.value && OccursAt(s, w, r.value)
              && forall k :: from <= k < r.value ==> !OccursAt(s, w, k)
    ensures r.None? ==> forall k :: from <= k ==> !OccursAt(s, w, k)
    decreases |s| - from
  {
    if OccursAt(s, w, from) then Some(from)
    else if from == |s| then None
    else IndexFrom(s, w, from + 1)
  }

  /** The position of the first occurrence of `w` in `s` (Python's `s.find(w)`). */
  function IndexOf(s: string, w: string): (r: Option<nat>)
    ensures r.Some? ==> OccursAt(s, w, r.value) && forall k :: 0 <= k < r.value ==> !OccursAt(s, w, k)
    ensures r.None? ==> forall k :: !OccursAt(s, w, k)
  {
    IndexFrom(s, w, 0)
  }

  /** Python's substring test `w in s`. */
  predicate Contains(s: string, w: string)
  {
    IndexOf(s, w).Some?
  }

  lemma ContainsIff(s: string, w: string)
    ensures Contains(s, w) <==> exists k :: OccursAt(s, w, k)
  {
  }

  /** Python's `s.split(sep, 1)` when `sep` occurs in `s`: the text before the first
      occurrence and the text after it. */
  function SplitOnce(s: string, sep: string): (r: Option<(string, string)>)
    ensures r.None? <==> !Contains(s, sep)
    ensures r.Some? ==> r.value.0 + sep + r.value.1 == s
    ensures r.Some? ==> forall k :: 0 <= k < |r.value.0| ==> !OccursAt(s, sep, k)
  {
    match IndexOf(s, sep)
    case None => None
    case Some(i) =>
      assert s[..i] + sep + s[i + |sep|..] == s by {
        assert s == s[..i] + s[i..i + |sep|] + s[i + |sep|..];
      }
      Some((s[..i], s[i + |sep|..]))
  }

  function StartsWith(s: string, p: string): bool
  {
    |p| <= |s| && s[..|p|] == p
  }

  predicate IsDigit(c: char)
  {
    '0' <= c <= '9'
  }

  predicate AllDigits(s: string)
  {
    forall i :: 0 <= i < |s| ==> IsDigit(s[i])
  }

  /** The longest prefix of `s` made of ASCII digits. */
  function DigitPrefix(s: string): (d: string)
    ensures |d| <= |s| && d == s[..|d|] && AllDigits(d)
    ensures |d| < |s| ==> !IsDigit(s[|d|])
  {
    if |s| > 0 && IsDigit(s[0]) then [s[0]] + DigitPrefix(s[1..]) else []
  }

  /** The position of the first ASCII digit of `s`, where `re.search(r'\d+', s)` matches. */
  function FirstDigit(s: string): (r: Option<nat>)
    ensures r.None? <==> forall i :: 0 <= i < |s| ==> !IsDigit(s[i])
    ensures r.Some? ==>
              && r.value < |s| && IsDigit(s[r.value])
              && forall i :: 0 <= i < r.value ==> !IsDigit(s[i])
  {
    if |s| == 0 then None
    else if IsDigit(s[0]) then Some(0)
    else match FirstDigit(s[1..])
      case None => None
      case Some(k) => Some(k + 1)
  }

  /** `d` is the slice of `s` at `k`, no digit precedes `k`, and no digit follows the slice:
      the leftmost maximal digit run when `d` is a non-empty run of digits. */
  predicate FirstRunAt(s: string, d: string, k: nat)
  {
    && k + |d| <= |s| && s[k..k + |d|] == d
    && (forall i :: 0 <= i < k ==> !IsDigit(s[i]))
    && (k + |d| == |s| || !IsDigit(s[k + |d|]))
  }

  /** `re.search(r'\d+', s).group()`: the first maximal run of digits, if any. */
  function FirstDigitRun(s: string): (r: Option<string>)
    ensures r.None? <==> forall i :: 0 <= i < |s| ==> !IsDigit(s[i])
    ensures r.Some? ==> |r.value| > 0 && AllDigits(r.value)
    ensures r.Some? ==> exists k: nat :: FirstRunAt(s, r.value, k)
  {
    match FirstDigit(s)
    case None => None
    case Some(k) =>
      var d := DigitPrefix(s[k..]);
      assert FirstRunAt(s, d, k);
      Some(d)
  }

  /** `re.match(r'^\d+', s).group()`: the digit run that starts `s`, if any. */
  function LeadingDigitRun(s: string): (r: Option<string>)
    ensures r.None? <==> (|s| == 0 || !IsDigit(s[0]))
    ensures r.Some? ==> |r.value| > 0 && AllDigits(r.value) && StartsWith(s, r.value)
    ensures r.Some? ==> |r.value| == |s| || !IsDigit(s[|r.value|])
  {
    if |s| > 0 && IsDigit(s[0]) then Some(DigitPrefix(s)) else None
  }

  function DigitValue(c: char): nat
    requires IsDigit(c)
  {
    c as int - '0' as int
  }

  function DigitChar(d: nat): (c: char)
    requires d < 10
    ensures IsDigit(c) && DigitValue(c) == d
  {
    ('0' as int + d) as char
  }

  /** Python's `int(d)` for a string of ASCII digits (leading zeros allowed). */
  function DigitsValue(d: string): nat
    requires AllDigits(d)
  {
    if |d| == 0 then 0 else 10 * DigitsValue(d[..|d| - 1]) + DigitValue(d[|d| - 1])
  }

  /** Python's `str(n)` for a natural number. */
  function Decimal(n: nat): (s: string)
    ensures |s| > 0 && AllDigits(s)
  {
    if n < 10 then [DigitChar(n)] else Decimal(n / 10) + [DigitChar(n % 10)]
  }

  /** Reading back the decimal text of `n` gives `n`, so a decimal index written
      into a prompt is the index a digit parser recovers. */
  lemma {:induction false} DecimalRoundTrip(n: nat)
    ensures DigitsValue(Decimal(n)) == n
  {
    if n >= 10 {
      DecimalRoundTrip(n / 10);
      var s := Decimal(n);
      assert s[..|s| - 1] == Decimal(n / 10);
    }
  }

  /** Python's `str(i)` for any integer. */
  function IntToString(i: int): string
  {
    if i < 0 then "-" + Decimal(-i) else Decimal(i)
  }

  /** Python's `sep.join(parts)`. */
  function Join(sep: string, parts: seq<string>): string
  {
    if |parts| == 0 then ""
    else if |parts| == 1 then parts[0]
    else parts[0] + sep + Join(sep, parts[1..])
  }

  /** Joining a concatenation puts one separator between the two joins; with
      `Join(sep, [p]) == p` this determines every join: each part in order,
      one separator between neighbours and none at either end. */
  lemma {:induction false} JoinAppend(sep: string, a: seq<string>, b: seq<string>)
    requires |a| > 0 && |b| > 0
    ensures Join(sep, a + b) == Join(sep, a) + sep + Join(sep, b)
  {
    assert (a + b)[0] == a[0];
    assert (a + b)[1..] == a[1..] + b;
    if |a| > 1 {
      JoinAppend(sep, a[1..], b);
    }
  }

  /** A join of one part is that part, and the join of nothing is empty. */
  lemma JoinSingle(sep: string, p: string)
    ensures Join(sep, [p]) == p
    ensures Join(sep, []) == ""
  {
  }

  /** A join of parts starts with the first part and ends with the last. */
  lemma {:induction false} JoinEnds(sep: string, parts: seq<string>)
    requires |parts| > 0
    ensures var r := Join(sep, parts); |parts[0]| <= |r| && r[..|parts[0]|] == parts[0]
    ensures var r := Join(sep, parts); var last := parts[|parts| - 1]; |last| <= |r| && r[|r| - |last|..] == last
  {
    if |parts| > 1 {
      var rest := Join(sep, parts[1..]);
      JoinEnds(sep, parts[1..]);
      assert Join(sep, parts) == parts[0] + sep + rest;
      assert (parts[0] + sep + rest)[..|parts[0]|] == parts[0];
      assert parts[1..][|parts| - 2] == parts[|parts| - 1];
    }
  }
}

=== FILE: user_context.dfy ===
/** The current profile name (frontend/src/context/UserContext.tsx). */
module UserContext {
  import opened Wrappers
  import opened Text
  import opened Storage

  const DefaultUser: string := "default"

  /** `name.trim() || 'default'`. */
  function Normalize(name: string): (r: string)
    ensures r != ""
    ensures JsTrim(name) != "" ==> r == JsTrim(name)
    ensures JsTrim(name) == "" ==> r == DefaultUser
  {
    var t := JsTrim(name);
    if t != "" then t else DefaultUser
  }

  /** Normalising a normalised name changes nothing, and a normalised name carries
      no surrounding whitespace. */
  lemma NormalizeIdempotent(name: string)
    ensures Normalize(Normalize(name)) == Normalize(name)
    ensures JsTrim(Normalize(name)) == Normalize(name)
  {
    TrimIdempotent(name, IsJsSpace);
    TrimUnpadded(DefaultUser, IsJsSpace);
  }

  /** A name that is already trimmed and non-empty is its own normal form. */
  lemma NormalizeTrimmed(name: string)
    requires JsTrim(name) != ""
    ensures Normalize(JsTrim(name)) == JsTrim(name)
  {
    TrimIdempotent(name, IsJsSpace);
  }

  /** `localStorage.getItem('aichef_username') || 'default'`. */
  function InitialUsername(stored: Option<string>): (r: string)
    ensures r != ""
    ensures stored.Some? && stored.value != "" ==> r == stored.value
    ensures stored.None? || stored.value == "" ==> r == DefaultUser
  {
    if stored.Some? && stored.value != "" then stored.value else DefaultUser
  }

  /** The user provider's state. */
  class UserSession {
    const store: Store
    var username: string

    constructor (store: Store)
      ensures this.store == store
      ensures username == InitialUsername(store.username)
    {
      this.store := store;
      username := InitialUsername(store.username);
    }

    /** `switchUser` (frontend/src/context/UserContext.tsx:16-22): the state and the
        stored name become the same normalised, never empty, name. */
    method SwitchUser(name: string)
      modifies this`username, store`username
      ensures username == Normalize(name)
      ensures store.username == Some(username)
      ensures username != ""
    {
      var newName := Normalize(name);
      username := newName;
      store.username := Some(newName);
    }
  }
}

=== FILE: user_switch.dfy ===
/** The profile switcher (frontend/src/components/UserSwitch.tsx): the saved
    profile list, its initialiser and the switch form. */
module UserSwitch {
  import opened Wrappers
  import opened Text
  import opened Sequences
  import opened Storage
  import UserContext

  const Defaults: seq<string> := ["Dad", "Mom", "Kid"]

  /** The `savedUsers` initialiser (frontend/src/components/UserSwitch.tsx:11-24):
      the defaults merged with the stored names through a `Set`, or just the
      defaults when nothing usable is stored. */
  function InitialSavedUsers(stored: SavedUsers): (r: seq<string>)
    ensures !stored.Names? ==> r == Defaults
  {
    match stored
    case Names(names) => Distinct(Defaults + names)
    case _ => Defaults
  }

  /** The merged list is the three defaults followed by the stored names that are
      not defaults, each once, in first-occurrence order; so it has no duplicates
      and holds every stored name. */
  lemma InitialSavedUsersSpec(stored: SavedUsers)
    ensures stored.Names? ==>
      InitialSavedUsers(stored) == Defaults + DistinctBy(stored.names, Identity, {"Dad", "Mom", "Kid"})
    ensures InitialSavedUsers(stored)[..3] == Defaults
    ensures NoDuplicates(InitialSavedUsers(stored))
    ensures stored.Names? ==> forall n :: n in stored.names ==> n in InitialSavedUsers(stored)
  {
    if stored.Names? {
      var names := stored.names;
      assert InitialSavedUsers(stored) == DistinctBy(Defaults + names, Identity, {});
      DistinctByAppend(Defaults, names, Identity, {});
      DistinctByOfDistinct(Defaults, Identity, {});
      assert {} + KeysOf(Defaults, Identity) == {"Dad", "Mom", "Kid"} by {
        assert forall k :: k in KeysOf(Defaults, Identity) ==> k in Defaults;
        assert "Dad" == Defaults[0] && "Mom" == Defaults[1] && "Kid" == Defaults[2];
      }
      DistinctExactlyOnce(Defaults + names);
    } else {
      assert NoDuplicates(Defaults);
    }
  }

  /** `Array.from(new Set(['default', ...savedUsers]))`. */
  function DisplayedProfiles(saved: seq<string>): seq<string>
  {
    Distinct([UserContext.DefaultUser] + saved)
  }

  /** The displayed list starts with `default` and shows every saved name exactly
      once, and nothing else. */
  lemma DisplayedProfilesSpec(saved: seq<string>)
    ensures |DisplayedProfiles(saved)| > 0 && DisplayedProfiles(saved)[0] == UserContext.DefaultUser
    ensures NoDuplicates(DisplayedProfiles(saved))
    ensures forall n :: n in DisplayedProfiles(saved) <==> n == UserContext.DefaultUser || n in saved
  {
    var s := [UserContext.DefaultUser] + saved;
    assert s[0] == UserContext.DefaultUser && s[1..] == saved;
    DistinctExactlyOnce(s);
  }

  /** The switcher's state. */
  class UserSwitchPanel {
    const store: Store
    const session: UserContext.UserSession
    var savedUsers: seq<string>
    var isOpen: bool
    var inputName: string

    /** The saved list never holds a name twice. */
    ghost predicate Valid()
      reads this
    {
      NoDuplicates(savedUsers)
    }

    constructor (store: Store, session: UserContext.UserSession)
      ensures this.store == store && this.session == session
      ensures savedUsers == InitialSavedUsers(store.savedUsers)
      ensures !isOpen && inputName == ""
      ensures Valid()
    {
      this.store := store;
      this.session := session;
      savedUsers := InitialSavedUsers(store.savedUsers);
      isOpen := false;
      inputName := "";
      InitialSavedUsersSpec(store.savedUsers);
    }

    /** `handleSwitch` (frontend/src/components/UserSwitch.tsx:26-41).  A name that
        trims to nothing changes nothing.  Otherwise the trimmed name is appended to
        the saved list (and the list stored) only if absent, becomes the current
        user, and the panel closes with its input cleared. */
    method HandleSwitch()
      requires Valid()
      modifies this`savedUsers, this`isOpen, this`inputName, store`savedUsers
      modifies session`username, session.store`username
      ensures Valid()
      ensures
        var trimmed := JsTrim(old(inputName));
        && (trimmed == "" ==>
              && savedUsers == old(savedUsers) && isOpen == old(isOpen) && inputName == old(inputName)
              && store.savedUsers == old(store.savedUsers) && session.username == old(session.username)
              && session.store.username == old(session.store.username))
        && (trimmed != "" ==>
              && savedUsers == AppendIfAbsent(old(savedUsers), trimmed)
              && (trimmed !in old(savedUsers) ==> store.savedUsers == Names(savedUsers))
              && (trimmed in old(savedUsers) ==> store.savedUsers == old(store.savedUsers))
              && session.username == trimmed && session.store.username == Some(trimmed)
              && !isOpen && inputName == "")
    {
      var trimmed := JsTrim(inputName);
      if trimmed != "" {
        if trimmed !in savedUsers {
          var newUsers := savedUsers + [trimmed];
          AppendIfAbsentNoDuplicates(savedUsers, trimmed);
          savedUsers := newUsers;
          store.savedUsers := Names(newUsers);
        }
        UserContext.NormalizeTrimmed(inputName);
        session.SwitchUser(trimmed);
        isOpen := false;
        inputName := "";
      }
    }
  }
}

=== FILE: wrappers.dfy ===
/** The optional-value datatype used throughout the model for Python's `None`,
    a missing dictionary key, a JavaScript `null`/`undefined`, and a decoder that failed. */
module Wrappers {

  datatype Option<+T> = None | Some(value: T) {

    /** `value` when present, otherwise `default` (Python's `d.get(key, default)`). */
    function GetOr(default: T): T
    {
      match this
      case Some(v) => v
      case None => default
    }
  }
}
